=== FILE: README.md ===
# geo-economy-analyzer-ai: a Dafny model of its session, chat and news-pipeline logic

This project models two layers of the repository as pure Dafny functions and
methods, and proves properties about them.

**The browser client** (`frontend/src`) is modelled as event-driven state
machines:

- the general chat panel: an append-only message log with one request in flight;
- the per-article chat panel: a single latest reply and a quota of five counted turns;
- the read-aloud controller and its text clean-up;
- the `localStorage` token handling of login, logout and the profile menu;
- the summaries fetch of the chat page;
- the topic-selection toggle.

Network replies, JSON parsing outcomes, speech-engine callbacks and clicks are
events or parameters.

**The backend** (`news/`) is modelled as decisions over small records, maps and
sequences:

- the keyword configuration;
- `quote_plus` and the GDELT query;
- article normalisation;
- the keyword-filtered, stable, top-N ranking;
- the URL-deduplicating save with its word-count threshold;
- the summarisation pass over pending pages;
- the Gemini model-fallback loop with its three-way error classification;
- the Qdrant wrapper guards;
- the decisions of the four API views.

External services are oracles: each is a function-typed parameter, or a
sequence of per-call outcomes. That covers `fetch_full_text`, the date parser,
Gemini, the embedding service, the vector search and the local model.

Modules:

- `Values`: optional values and JavaScript/Python truthiness.
- `Text`: the two whitespace sets, `trim`/`strip`, `split()`, lower-casing and one-character split/join.
- `Transport`: the shape of a chat reply.
- `GeneralChat`, `ArticleChat`, `Playback`, `Sanitize`, `Session`, `ChatPage`, `Topics`: the client.
- `Config`, `NewsUtils`, `Ranking`, `Saver`, `Summarize`, `Gemini`, `Qdrant`, `Views`: the backend.

## Model

| member | source | states |
|---|---|---|
| Text.Trim | frontend/src/GeneralChatPanel.jsx:22 | The result is the part of the input between its leading and its trailing whitespace. Both borders are all whitespace and the result starts and ends with non-whitespace. It is empty iff the input is blank. The whitespace set is JavaScript's or Python's, as chosen. |
| Text.TrimIdempotent | news/news_fetcher/saver.py:22 | Stripping an already stripped text changes nothing. |
| Text.WordCountIsRunStarts | news/news_fetcher/utils.py:6-8 | `len(text.split())` equals an independent count: the positions where a non-whitespace character follows whitespace or the start of the text. |
| Text.WordCountAppend | news/news_fetcher/utils.py:6-8 | Joining two texts with a space adds their word counts. |
| Text.JoinSplit | news/news_fetcher/config.py:20 | Joining the pieces of `s.split(c)` with `c` gives back `s`. |
| Text.Take | news/news_fetcher/saver.py:21 | `s[:n]` is the prefix of `s` of length `min(n, len(s))`. |
| Text.LowerKeepsLowercase | news/services/gemini.py:55 | Lower-casing text that has no capitals leaves it unchanged. |
| GeneralChat.Init | frontend/src/GeneralChatPanel.jsx:11-15 | The log starts as exactly one AI greeting entry, with an empty input and nothing in flight. |
| GeneralChat.Submit | frontend/src/GeneralChatPanel.jsx:21-37 | The submit is refused, changing nothing, iff the question is blank by `trim` or a request is in flight. Otherwise one user entry holding the untrimmed question is appended, loading is set, the input is cleared, and the request carries the question as it was before clearing. |
| GeneralChat.AnswerText | frontend/src/GeneralChatPanel.jsx:39-48 | A non-ok status gives the error prefix followed by `error` or the fallback text. An ok status gives `reply` or the empty-reply text. A throw gives the connection-failure text, and that includes a whole-body `null`, whose fields cannot be read. The text is never empty. |
| GeneralChat.Resolve | frontend/src/GeneralChatPanel.jsx:41-51 | Each outcome appends exactly one AI entry, for the outcome's text, leaving every earlier entry unchanged, and loading ends false. |
| GeneralChat.SubmitThenResolve | frontend/src/GeneralChatPanel.jsx:21-51 | An accepted question and its answer grow the log by exactly two entries, a user entry and then an AI entry. |
| GeneralChat.RunKeepsLog | frontend/src/GeneralChatPanel.jsx:21-51 | Under any sequence of edits, submits and deliveries, the log only grows at its end, keeps alternating, and ends in a user entry exactly while a request is in flight. |
| ArticleChat.Init | frontend/src/ChatPanel.jsx:8-13 | The panel starts with no turns used and the send button enabled. |
| ArticleChat.Submit | frontend/src/ChatPanel.jsx:16-20 | The submit is refused, changing nothing, iff the question is blank, a request is in flight, or five turns are used. Otherwise loading is set, the previous reply is cleared, and the request carries both ids and the question. |
| ArticleChat.Resolve | frontend/src/ChatPanel.jsx:36-44 | A body that parses as JSON, whatever its status, sets the reply or its fallback, counts exactly one turn and clears the question. A throw sets the error reply and keeps both the count and the question. Loading ends false. |
| ArticleChat.CountedIffParsed | frontend/src/ChatPanel.jsx:36-41 | The count rises by one iff the body parsed, so a server error still uses a turn, and it stays the same iff the request threw. |
| ArticleChat.ExhaustedIsInert | frontend/src/ChatPanel.jsx:16-69 | With five turns used, the button is disabled and every submit changes nothing. |
| ArticleChat.BlankEnabledButInert | frontend/src/ChatPanel.jsx:16-69 | A blank question leaves the button enabled, but pressing it does nothing. |
| ArticleChat.RunWithinQuota | frontend/src/ChatPanel.jsx:13-44 | No sequence of events takes the count past five, and the count never decreases. |
| ArticleChat.RoundAnswered | frontend/src/ChatPanel.jsx:16-44 | Typing, sending and getting a parsed answer uses one turn, shows the reply and empties the input. |
| ArticleChat.RoundRefused | frontend/src/ChatPanel.jsx:17 | With the quota used up, a whole round only changes the input box. |
| ArticleChat.FiveRoundsExhaust | frontend/src/ChatPanel.jsx:13-44 | After five answered rounds from the initial panel the quota is used up, and a sixth round only changes the input box. |
| ArticleChat.RunAppend | frontend/src/ChatPanel.jsx:16-44 | Running two event sequences one after the other is running their concatenation. |
| Playback.Toggle | frontend/src/GeneralChatPanel.jsx:64-81 | Pressing the button of the message being read cancels speech and clears the mark. Any other press cancels first, speaks exactly one new utterance and marks that message. A speak always follows a cancel. |
| Playback.ToggleTwice | frontend/src/GeneralChatPanel.jsx:64-81 | Pressing the same button twice, from a state where it was not marked, ends with nothing marked and nothing playing. |
| Playback.Finished | frontend/src/GeneralChatPanel.jsx:77-78 | An end or error event of any utterance clears the mark, whichever utterance it belongs to. The engine changes only if that utterance is the one playing. |
| Playback.Unmount | frontend/src/GeneralChatPanel.jsx:58-62 | Unmounting always cancels speech. |
| Playback.MarkedImpliesPlaying | frontend/src/GeneralChatPanel.jsx:64-81 | A marked message always has an utterance playing, after a press and after an end event. |
| Playback.StaleEndClearsNewerMark | frontend/src/GeneralChatPanel.jsx:77-80 | Read message 0, switch to message 1, then let the cancelled first utterance report its end. Message 1 is still playing, but nothing is marked. |
| Playback.FinishedLatest | frontend/src/GeneralChatPanel.jsx:77-78 | The corrected callback clears the mark only for the end of the most recent utterance. |
| Playback.FinishedLatestKeepsSync | frontend/src/GeneralChatPanel.jsx:64-81 | With the corrected callback, a message is marked iff an utterance is playing, after every event. |
| Sanitize.RemoveChars | frontend/src/GeneralChatPanel.jsx:71-72 | The kept characters are exactly the input's characters outside the removed set. A text with none of them comes back unchanged. |
| Sanitize.RemoveLinks | frontend/src/GeneralChatPanel.jsx:73 | Removing parenthesised links only removes characters, and a text without `(`, which can hold no link, comes back unchanged. |
| Sanitize.RemoveTags | frontend/src/GeneralChatPanel.jsx:74 | After removing `<…>` tags, no `<` has a `>` after it, and only characters of the input remain. A text without `<` comes back unchanged. |
| Sanitize.NewlinesToStops | frontend/src/GeneralChatPanel.jsx:75 | No newline remains, only input characters plus `.` and space appear, and tag-freedom is kept. A text without newlines comes back unchanged. |
| Sanitize.ForSpeech | frontend/src/GeneralChatPanel.jsx:70-75 | The spoken text contains no markdown punctuation, emoji, newline or `<…>` tag. Plain prose, with no emoji, markdown character, `(`, `<` or newline, is spoken exactly as written. |
| Sanitize.RemoveCharsAppend | frontend/src/GeneralChatPanel.jsx:71-72 | Removing characters from a concatenation is removing them from each part, so the pass never moves or merges text across the join. |
| Sanitize.RemoveLinksAppend | frontend/src/GeneralChatPanel.jsx:73 | Text before the first `(` is kept unchanged, whatever follows it. |
| Sanitize.LinkRemoved | frontend/src/GeneralChatPanel.jsx:73 | A whole `(http://…)` or `(https://…)` link, up to the first `)`, is removed, and the scan goes on right after it. |
| Sanitize.RemoveTagsAppend | frontend/src/GeneralChatPanel.jsx:74 | Text before the first `<` is kept unchanged, whatever follows it. |
| Sanitize.TagRemoved | frontend/src/GeneralChatPanel.jsx:74 | A whole `<…>` tag, up to the first `>`, is removed, and the scan goes on right after it. |
| Sanitize.NewlinesToStopsAppend | frontend/src/GeneralChatPanel.jsx:75 | Text before the first newline is kept unchanged, whatever follows it. |
| Sanitize.NewlineRunToStop | frontend/src/GeneralChatPanel.jsx:75 | A whole run of one or more newlines becomes a single `. `, and the rest is converted on its own. |
| Sanitize.ForSpeechPlainPrefix | frontend/src/GeneralChatPanel.jsx:70-75 | Plain text at the front is read exactly as written, whatever follows it. |
| Sanitize.MarkupPrefixSilent | frontend/src/GeneralChatPanel.jsx:71-72 | Emoji and markdown characters at the front are not read, and the rest is read as if they were absent. |
| Sanitize.EmphasisDropped | frontend/src/GeneralChatPanel.jsx:70-75 | Between two plain texts, `**` is dropped and both texts are read as written. |
| Session.Clear | frontend/src/ProfileMenu.jsx:29-33 | After clearing, the store is empty: no access token and no refresh token. |
| Session.Bearer | frontend/src/GeneralChatPanel.jsx:19-34 | The header is `Bearer ` followed by whatever token is stored, even an empty one, or by the text `null` when none is stored. |
| Session.Login | frontend/src/Login.jsx:15-33 | The error is reset first. A non-ok response shows "Invalid credentials" and writes nothing. A rejected request writes nothing and does not navigate. An ok response writes both token slots, a missing field being stored as "undefined", and then navigates home. Only an ok reply with a JSON object body changes the store: a `null` body throws on `data.access` and, like an unparsable one, writes nothing. |
| Session.LoginAuthenticates | frontend/src/Login.jsx:29-33 | After an ok login the user counts as authenticated iff the access field is missing, in which case "undefined" is stored, or non-empty. An empty access token is stored but leaves the user logged out. |
| Session.RenderMenu | frontend/src/ProfileMenu.jsx:15-50 | Only the login button is shown iff no access token is stored; the token is not validated. |
| Session.Logout | frontend/src/ProfileMenu.jsx:29-33 | Logout empties the store, closes the menu and navigates to the login page, after which only the login button is shown. |
| Session.NavigateTo | frontend/src/ProfileMenu.jsx:35-38 | Navigation closes the menu, navigates, and leaves the store alone. |
| Session.ClickOutside | frontend/src/ProfileMenu.jsx:18-27 | A mouse-down outside the menu closes it; one inside changes nothing. |
| Session.LogoutThenLogin | frontend/src/ProfileMenu.jsx:29-33 | A login after a logout leaves exactly the two token slots, holding the new access and refresh values. |
| ChatPage.FindById | frontend/src/ChatPage.jsx:32 | A match is the first item whose id equals `Number(id)`. There is no match iff the id is not a number or no item has it. |
| ChatPage.Load | frontend/src/ChatPage.jsx:17-43 | Loading always ends. A 401 clears the whole store, redirects to the login page and ends in "Article not found.". Only the 401 touches the store or navigates. A rejection, an unparsable body, or a JSON body that is neither an array nor `null` ends in "Failed to load session context." with no data. An array or `null` body leaves the store alone and settles on the first item with the id, or on "Article not found." when the body is `null` or holds no such item. "Article not found." appears iff the reply was a 401, a `null` body, or an array without the id. |
| ChatPage.Render | frontend/src/ChatPage.jsx:45-88 | A spinner shows while loading. The chat shows iff loading is over with data and no error, and it receives the item's `article.id` and its `id`. |
| ChatPage.ChatShownIffFound | frontend/src/ChatPage.jsx:17-88 | The chat panel is shown exactly when the list came back as an array holding the id. |
| Topics.Toggle | frontend/src/SelectTopics.jsx:21-27 | Toggling flips the id's membership, appends it at the end when it is absent, leaves every other id's membership alone, and never introduces duplicates. |
| Topics.ToggleTwice | frontend/src/SelectTopics.jsx:21-27 | Toggling an absent id twice restores the list. Toggling a present id twice moves it to the end. |
| Topics.Save | frontend/src/SelectTopics.jsx:29-38 | Save posts exactly the current selection, and navigates home iff the request resolves. |
| Topics.ClickDistinct | frontend/src/SelectTopics.jsx:21-27 | Clicking distinct new topics once each appends them in click order. |
| Config.KeepStrippedMembers | news/news_fetcher/config.py:20 | A keyword is kept iff it is the stripped form of a non-blank piece. |
| Config.KeepStrippedAppend | news/news_fetcher/config.py:20 | Keywords keep the order of their pieces. |
| Config.ParseKeywords | news/news_fetcher/config.py:16-20 | Every parsed keyword is non-empty, has no surrounding whitespace and contains no comma. There are never more keywords than comma-separated pieces. |
| Config.ParseKeywordsMembers | news/news_fetcher/config.py:16-20 | The keywords are exactly the stripped non-blank pieces of the variable. |
| Config.ParseJoined | news/news_fetcher/config.py:16-20 | A comma-joined list of comma-free entries parses back to its stripped non-blank entries, in order. |
| NewsUtils.WordCountOf | news/news_fetcher/utils.py:6-8 | `None` and `""` have no words. Any other text has as many words as places where a word starts. |
| NewsUtils.QuotePlus | news/news_fetcher/utils.py:16 | The encoding uses only unreserved characters, `+` and `%XX` escapes, so it contains no space. |
| NewsUtils.UnquoteQuote | news/news_fetcher/utils.py:16 | Percent-decoding the encoded UTF-8 bytes gives them back, so the encoding is injective. |
| NewsUtils.QuotePlainAscii | news/news_fetcher/utils.py:16 | A word of unreserved ASCII characters is encoded as itself. |
| NewsUtils.BuildGdeltQuery | news/news_fetcher/utils.py:11-17 | The query is the encoded keywords joined by " OR ", inside parentheses. |
| NewsUtils.QueryKeywordsRecoverable | news/news_fetcher/utils.py:11-17 | Splitting the inside of the query on " OR " recovers exactly the encoded keywords, in order. Encoded keywords contain no space, so the separator cannot occur inside one. |
| NewsUtils.FirstTruthy | news/news_fetcher/utils.py:25-29 | The result is the value of the first key in the chain whose value is truthy: it is that key's non-empty value, and no earlier key has a truthy value. It is absent iff no key has a truthy value. |
| NewsUtils.NormalizeArticle | news/news_fetcher/utils.py:20-30 | Title, url and snippet take the first truthy key of their chain, else "". Source takes domain, then source, then "gdelt", so it is never empty. The raw date is the first truthy of seendate, publishdate and pubDate, otherwise pubDate as it is. |
| NewsUtils.EmptyPubDateKept | news/news_fetcher/utils.py:28 | A record whose only date key is an empty pubDate keeps `""`, not `None`. |
| NewsUtils.ParsePublishedAt | news/news_fetcher/utils.py:33-43 | The result is absent iff the raw value is falsy or unparseable, and no exception escapes. A parsed result is always timezone-aware: a naive one is placed in UTC with its wall-clock reading kept. |
| Ranking.Eligible | news/news_fetcher/ranking.py:11-25 | A position is eligible iff its article mentions a keyword, or no article does. When none does, every position is eligible. |
| Ranking.ChainSorted | news/news_fetcher/ranking.py:27 | The order used by the sort, higher score first and then earlier position, is transitive, so adjacent order implies full order. |
| Ranking.Insert | news/news_fetcher/ranking.py:27 | An insertion step adds exactly the new position to the multiset. |
| Ranking.InsertChain | news/news_fetcher/ranking.py:27 | Inserting a new position into a sorted list keeps it sorted. |
| Ranking.SortBy | news/news_fetcher/ranking.py:27 | Sorting permutes the positions. |
| Ranking.SortChain | news/news_fetcher/ranking.py:27 | The sort of distinct positions is ordered by descending score, with ties in input order. |
| Ranking.RankedFacts | news/news_fetcher/ranking.py:11-27 | The sorted list holds exactly the eligible positions, each in range, in the sort's order. |
| Ranking.RankArticles | news/news_fetcher/ranking.py:11-29 | Every returned article is an input article, and there are at most `min(TOP_N, len(articles))` of them. If any article mentions a keyword, only such articles are returned; if none does, exactly `min(TOP_N, len(articles))` are. Scores never increase along the output. |
| Ranking.RankedArticlesFacts | news/news_fetcher/ranking.py:11-29 | The articles at the ranked positions meet every promise of `rank_articles`: bounded count, input articles only, the keyword filter or the full fallback, and descending scores. |
| Ranking.RankBounded | news/news_fetcher/ranking.py:29 | At most `min(TOP_N, len(articles))` positions are returned. |
| Ranking.RankDistinct | news/news_fetcher/ranking.py:11-29 | No input position is returned twice. |
| Ranking.RankFilters | news/news_fetcher/ranking.py:12-19 | If any article mentions a keyword, only positions of such articles are returned. |
| Ranking.RankFallback | news/news_fetcher/ranking.py:21-25 | If no article mentions a keyword, every article is eligible and exactly `min(TOP_N, len(articles))` positions are returned. |
| Ranking.RankOrdered | news/news_fetcher/ranking.py:27-29 | Scores never increase along the output, and equal scores keep their input order. |
| Ranking.LeftOutScoreNoHigher | news/news_fetcher/ranking.py:27-29 | An eligible article that was cut scores no higher than any returned one. |
| Saver.ChosenSnippet | news/news_fetcher/saver.py:22-29 | A long enough stripped snippet is kept. It is replaced only when it was short and the fetched full text is long enough. |
| Saver.Prepare | news/news_fetcher/saver.py:21-57 | An item is saved iff its chosen snippet has at least 300 words. The row has the title cut to 300 characters, and the item's source, or "gdelt" when that is empty. It also has the parsed date and a page reset to an unsummarised 200-character preview of that snippet. |
| Saver.FirstIndexSnoc | news/news_fetcher/saver.py:17-19 | Adding an item keeps every URL's first occurrence. The item is itself a first occurrence iff its URL is new. |
| Saver.SaveArticles | news/news_fetcher/saver.py:11-62 | Every URL ends with the row prepared from its first item, or keeps its old row when that item is skipped or the URL is empty. The count is the number of URLs created and is at most the number of distinct non-empty URLs. The full text is fetched exactly for the URLs whose first item had a short snippet. |
| Saver.SavedRowsLong | news/news_fetcher/saver.py:31-57 | Every row the save writes holds a snippet of at least 300 words and an unsummarised page, and every other row is unchanged. |
| Saver.DuplicateIgnored | news/news_fetcher/saver.py:17-19 | A later item with an already-seen URL changes neither the rows nor the fetches. |
| Summarize.SummarizeRow | news/management/commands/summarize_news.py:38-75 | A row that is not pending, or whose stripped snippet has under 300 words, or whose summary failed or came back empty, is unchanged and stays as pending as it was. On success the summary, time, model name "llama3.1:8b" and confidence 0.85 are set and the row stops being pending. The article is never changed. |
| Summarize.SummarizeRowIdempotent | news/management/commands/summarize_news.py:29-75 | A second pass with the same model changes nothing. |
| Summarize.VisitPending | news/management/commands/summarize_news.py:38-75 | Visiting the pending keys in any order gives each its new row and calls the model once per asked key. |
| Summarize.Handle | news/management/commands/summarize_news.py:25-77 | Every row becomes its summarised form, stamped with the clock reading taken when that row is saved, and no row is added or removed. The model is called once per pending row with a long enough text. |
| Gemini.Classify | news/services/gemini.py:55-70 | The error is an invalid key iff the key check applies and the lower-cased message names an invalid key. It is retryable iff it is not that and the message names a quota or availability problem. Anything else is fatal. |
| Gemini.FallbackFrom | news/services/gemini.py:44-73 | Models are tried in order, and every model before the last one called failed retryably. A reply returns that text. An invalid key aborts with the lower-cased details. A fatal error is re-raised. Exhaustion happens iff every model failed retryably, and no later model is called. |
| Gemini.TryModels | news/services/gemini.py:42-73 | With one oracle call per configured model, the loop ends exactly as the fallback function says. Exhaustion means every configured model was called. |
| Gemini.ArticleConversation | news/services/gemini.py:13-73 | An unset key raises before any model call. Otherwise the outcome and the number of models called are those of the fallback loop with the invalid-key branch. |
| Gemini.CompareCareers | news/services/gemini.py:75-120 | The outcome is that of the fallback loop without the invalid-key branch. So it is never an invalid-key error, and a failure is re-raised iff its message names no retry keyword, even when it names an invalid key. |
| Gemini.RetrievalContext | news/services/gemini.py:127-142 | The context is used iff the search returned a non-empty list without raising. Otherwise the default text stays. |
| Gemini.GeneralConversation | news/services/gemini.py:122-189 | An unset key raises first, and a failed search never stops the call. The context flag is true iff hits were found. The prompt's context text is the joined hits, or "No specific news context found." otherwise. The outcome is that of the fallback loop with the invalid-key branch. |
| Gemini.OneModelExhausts | news/services/gemini.py:6-8 | With the single configured model, one retryable failure ends the fallback loop as exhausted after one call. |
| Gemini.InvalidKeyBeatsRetry | news/services/gemini.py:59-65 | Worked example: "429 401" is an invalid key where the key check applies, and retryable in `compare_careers`. |
| Qdrant.EnsureCollection | news/services/qdrant_service.py:17-33 | A missing collection is created. One of the wrong size is deleted and recreated empty. One of size 3072 is untouched with no calls. The result always has size 3072. |
| Qdrant.EnsureCollectionIdempotent | news/services/qdrant_service.py:17-33 | Ensuring twice makes no calls the second time. |
| Qdrant.EmbeddingUnique | news/services/qdrant_service.py:42-57 | The retry loop can end with only one embedding: the first success after rate-limited failures. |
| Qdrant.GetEmbedding | news/services/qdrant_service.py:35-57 | Empty text gives nothing without any call. At most three attempts are made on the first 8000 characters, and every attempt before the last was rate-limited. A success returns its vector. A failure that is not a rate limit, or three rate limits, gives nothing. Each rate limit waits 2, 4 or 6 seconds. |
| Qdrant.PayloadOf | news/services/qdrant_service.py:73-79 | The payload keeps title, url and source, prints the date or stores "" when there is none, and keeps exactly the first `min(1000, len(snippet))` characters of the snippet. |
| Qdrant.UpsertArticle | news/services/qdrant_service.py:59-83 | Without an embedding the answer is false and the collection is unchanged. Otherwise the point is written under the article id with its embedding and payload, and no other point changes. |
| Qdrant.SearchSimilar | news/services/qdrant_service.py:85-95 | Without an embedding the answer is empty and the store is not queried. Otherwise the answer is the query's result for that embedding. |
| Views.Register | news/views.py:24-53 | A missing username or password gives 400 before the duplicate check. An existing username gives 400. In both cases the store is unchanged. Otherwise the status is 201 and exactly that user and an empty preference are added. |
| Views.RegisterTwice | news/views.py:35-39 | Registering the same name again is refused and changes nothing. |
| Views.RegisterOthersUnchanged | news/views.py:41-48 | A registration touches no other user or preference. |
| Views.SavePreferences | news/views.py:82-90 | The preference, created if missing, becomes exactly the existing topics whose ids were requested. Unknown ids are ignored and no other user changes. |
| Views.SavePreferencesIdempotent | news/views.py:82-90 | Saving the same request twice is saving it once. |
| Views.Matching | news/views.py:120-122 | The listed summaries are exactly those whose article shares a topic with the user. |
| Views.MatchingDistinct | news/views.py:120-122 | Distinct rows stay distinct in the listing. |
| Views.SummaryList | news/views.py:100-125 | A missing preference or one with no topic gives the onboarding answer. Otherwise the summaries sharing a topic are listed. |
| Views.NewUserOnboards | news/views.py:103-118 | A freshly registered user is sent to onboarding. |
| Views.DecideChat | news/views.py:135-166 | The checks run in order. 400 iff a field is falsy. 404 iff the summary is unknown. 500 iff the user has no preference row. 403 iff no topic is shared. Otherwise the model is asked with the snippet, or with the title when the snippet is empty. |
| Views.ArticleIdIgnored | news/views.py:136-140 | The article id is only checked for presence: any two non-zero ids give the same decision. |
| Views.ArticleChat | news/views.py:135-173 | A rejection returns its status without calling the model. With an unset key the answer is 500. Otherwise the fallback loop decides: its reply is returned with 200, and any other ending (invalid key, re-raised error, exhaustion) is a 500. A 200 comes only from an allowed question that the model answered. |

## Left out

- Rendering, CSS, animation, scrolling and the markdown renderer are left out. They decide nothing.
- The network, `fetch`, `localStorage` I/O, the speech engine, the Gemini, Qdrant, Ollama and GDELT clients, `fetch_full_text` and `dateutil` are left out. Each is a parameter: an outcome value, a per-call sequence or a function.
- The emoji property classes of the read-aloud clean-up are a parameter (a set of characters), because Unicode property tables are not available.
- `Text.Lower` lower-cases ASCII capitals only, because Python's full Unicode case mapping is not modelled. The markers it is compared with are all ASCII.
- The integer and float overrides of the numeric settings from the environment (`TOP_N`, `MIN_ARTICLE_LENGTH` and so on) are left out. The defaults are constants, and `TOP_N` is a parameter of the ranking.
- `ARTICLE_FETCH_PAUSE` sleeps and the stdout messages are left out. The embedding retry waits are returned as a list of seconds.
- The GDELT request itself (`gdelt.py`), the fetch and index management commands, `TopicListAPIView`, the Adzuna service and the debug scripts are not part of this model.
- Saver.SaveArticles: the article URL is the map key, so URL uniqueness is by construction. The page is stored with its article instead of as a separate table.
- Summarize.Handle: the database's chunked iteration is a choice among the pending keys. An exception from `summary_page.save()` is not modelled.
- Views.DecideChat: request ids are integers (0 is falsy). String ids that Django would convert are not modelled. A missing preference row surfaces as an uncaught exception, modelled as status 500.
- Views.ArticleChat: every exception from `article_conversation` becomes a 500. The exception types are not distinguished.
- Gemini.TryModels: `response.text` being `None` is not modelled, because a returned reply is a string. `get_client()` is assumed not to raise. The call oracle holds exactly one outcome per configured model, so the loop and its callers require `|calls| == |ModelPriority|`.
- Gemini.GeneralConversation: the fixed instruction text of the prompts, and the question placed in them, are not modelled. A prompt only reaches the model, whose outcomes are given. The retrieved-context text is modelled.
- Qdrant.EnsureCollection: a `get_collection` failure for a reason other than a missing collection is not distinguished from "missing".
- Qdrant.SearchSimilar: the `limit` is passed to the query oracle, which is trusted to respect it.
- `news/models.py` defines no `Topic` and no `UserPreference` model, although `views.py` imports both. Their fields are taken from their use in `views.py`. Likewise `urls.py` routes view classes that `views.py` does not define. Routing is not part of this model.
- Ranking: the keywords are matched as given, without lower-casing, against the lower-cased article text. This follows the code: an upper-case keyword can never match.
- Sanitize.RemoveChars: its own contract gives the set of kept characters. Their order and number relate several calls, so they are stated by RemoveCharsAppend.
- Sanitize.RemoveLinks: its own contract says what is removed and that a text without `(` is kept. What is kept around a link in other texts relates several calls, so it is stated by RemoveLinksAppend and LinkRemoved.
- Sanitize.RemoveTags: likewise, the text kept around a tag is stated by RemoveTagsAppend and TagRemoved.
- Sanitize.NewlinesToStops: likewise, the text kept around newlines is stated by NewlinesToStopsAppend and NewlineRunToStop.
- Sanitize.ForSpeech: likewise, what survives from a text that needs cleaning is stated by ForSpeechPlainPrefix, MarkupPrefixSilent and EmphasisDropped, not by its own contract. A link or tag inside other text is covered pass by pass.

## Findings

| source | as written | input that shows it | evidently intended | confidence | as-written member | corrected member |
|---|---|---|---|---|---|---|
| frontend/src/GeneralChatPanel.jsx:77-78 | the `onend`/`onerror` callbacks of every utterance set `speakingIdx` to null | read message 0, then message 1; the cancelled first utterance reports its end while message 1 is still being read | only the end of the utterance currently playing clears the mark | high (not executed) | Playback.StaleEndClearsNewerMark | Playback.FinishedLatestKeepsSync |

=== FILE: article_chat.dfy ===
/** The per-article chat panel (`ChatPanel`): it keeps only the latest
    reply, not a log, and allows at most `MaxFree` counted round-trips per
    instance. A round-trip is counted whenever the response body parses as
    JSON, whatever its HTTP status; a thrown request or parse failure is not
    counted and keeps the question in the input box. */
module ArticleChat {
  import opened Values
  import opened Text
  import opened Transport

  const MaxFree: nat := 5
  const NoResponse: string := "\U{26A0}\U{FE0F} No response from AI."
  const SomethingWrong: string := "\U{26A0}\U{FE0F} Something went wrong. Please try again."

  datatype Panel = Panel(question: string, reply: string, loading: bool, count: nat)

  /** The body of a `POST /api/chat/` request. */
  datatype Request = Request(articleId: int, summaryId: int, question: string)

  /** The quota is never exceeded, and a request is only ever in flight
      while the quota still had room when it was sent. */
  predicate Valid(p: Panel) {
    p.count <= MaxFree && (p.loading ==> p.count < MaxFree)
  }

  function Init(): (p: Panel)
    ensures Valid(p) && CanSend(p) && p.count == 0 && p.reply == ""
  {
    Panel("", "", false, 0)
  }

  /** The send button is enabled iff no request is in flight and the quota
      has room; a blank question does not disable it. */
  predicate CanSend(p: Panel) {
    !(p.loading || p.count >= MaxFree)
  }

  function Edit(p: Panel, text: string): (r: Panel)
    ensures r.question == text && r.reply == p.reply && r.loading == p.loading && r.count == p.count
  {
    p.(question := text)
  }

  datatype Submitted = Submitted(next: Panel, request: Option<Request>)

  /** `askAI` up to the `await`: refuses a blank question, a second request
      and an exhausted quota; otherwise sets `loading` and clears the
      previous reply, leaving the question in the box while it waits. */
  function Submit(p: Panel, articleId: int, summaryId: int): (r: Submitted)
    ensures r.request.None? <==> IsBlank(Js, p.question) || p.loading || p.count >= MaxFree
    ensures r.request.None? ==> r.next == p
    ensures r.request.Some? ==>
              && r.request.value == Request(articleId, summaryId, p.question)
              && r.next == Panel(p.question, "", true, p.count)
    ensures Valid(p) ==> Valid(r.next)
  {
    if Trim(Js, p.question) == "" || p.loading || p.count >= MaxFree then Submitted(p, None)
    else Submitted(Panel(p.question, "", true, p.count), Some(Request(articleId, summaryId, p.question)))
  }

  /** `askAI` after the `await`. */
  function Resolve(p: Panel, o: Outcome): (r: Panel)
    ensures !r.loading
    ensures o.Answered? ==> r.count == p.count + 1 && r.question == ""
                            && r.reply == Or(o.body.reply, NoResponse)
    ensures o.Thrown? ==> r.count == p.count && r.question == p.question && r.reply == SomethingWrong
    ensures r.reply != ""
    ensures Valid(p) && p.loading ==> Valid(r)
  {
    match o
    case Answered(_, body) => Panel("", Or(body.reply, NoResponse), false, p.count + 1)
    case Thrown => Panel(p.question, SomethingWrong, false, p.count)
  }

  /** A server error status still uses up a turn: only a throw is free. */
  lemma CountedIffParsed(p: Panel, o: Outcome)
    ensures Resolve(p, o).count == p.count + 1 <==> o.Answered?
    ensures Resolve(p, o).count == p.count <==> o.Thrown?
  {
  }

  /** Once the quota is used up, no submit changes anything. */
  lemma ExhaustedIsInert(p: Panel, articleId: int, summaryId: int)
    requires p.count >= MaxFree
    ensures !CanSend(p)
    ensures Submit(p, articleId, summaryId) == Submitted(p, None)
  {
  }

  /** The button can be enabled while pressing it does nothing. */
  lemma BlankEnabledButInert(p: Panel, articleId: int, summaryId: int)
    requires !p.loading && p.count < MaxFree && IsBlank(Js, p.question)
    ensures CanSend(p)
    ensures Submit(p, articleId, summaryId).next == p
  {
  }

  /** The events the panel reacts to; `Deliver` is the answer to the
      request in flight and arrives only while one is. */
  datatype Event = Type(text: string) | Send | Deliver(outcome: Outcome)

  function Step(p: Panel, articleId: int, summaryId: int, e: Event): Panel {
    match e
    case Type(t) => Edit(p, t)
    case Send => Submit(p, articleId, summaryId).next
    case Deliver(o) => if p.loading then Resolve(p, o) else p
  }

  function Run(p: Panel, articleId: int, summaryId: int, es: seq<Event>): Panel
    decreases |es|
  {
    if es == [] then p else Run(Step(p, articleId, summaryId, es[0]), articleId, summaryId, es[1..])
  }

  /** No sequence of events takes the count past the quota, and the count
      never goes down. */
  lemma {:induction false} RunWithinQuota(p: Panel, articleId: int, summaryId: int, es: seq<Event>)
    requires Valid(p)
    ensures Valid(Run(p, articleId, summaryId, es))
    ensures p.count <= Run(p, articleId, summaryId, es).count <= MaxFree
    decreases |es|
  {
    if es != [] {
      RunWithinQuota(Step(p, articleId, summaryId, es[0]), articleId, summaryId, es[1..]);
    }
  }

  /** One question typed, sent and answered with a parsed body. */
  function Round(q: string, reply: string): seq<Event> {
    [Type(q), Send, Deliver(Answered(true, Body(Some(reply), None)))]
  }

  /** A round with a non-blank question and a non-empty reply, while the
      quota has room, uses one turn and shows the reply. */
  lemma RoundAnswered(p: Panel, articleId: int, summaryId: int, q: string, reply: string)
    requires !p.loading && p.count < MaxFree && !IsBlank(Js, q) && reply != ""
    ensures Run(p, articleId, summaryId, Round(q, reply)) == Panel("", reply, false, p.count + 1)
  {
    var r := Round(q, reply);
    var p1 := Step(p, articleId, summaryId, r[0]);
    var p2 := Step(p1, articleId, summaryId, r[1]);
    var p3 := Step(p2, articleId, summaryId, r[2]);
    assert p2 == Panel(q, "", true, p.count);
    assert p3 == Panel("", reply, false, p.count + 1);
    RunThree(p, articleId, summaryId, r);
  }

  lemma RunThree(p: Panel, articleId: int, summaryId: int, r: seq<Event>)
    requires |r| == 3
    ensures Run(p, articleId, summaryId, r)
            == Step(Step(Step(p, articleId, summaryId, r[0]), articleId, summaryId, r[1]), articleId, summaryId, r[2])
  {
    var p1 := Step(p, articleId, summaryId, r[0]);
    var p2 := Step(p1, articleId, summaryId, r[1]);
    assert Run(p, articleId, summaryId, r) == Run(p1, articleId, summaryId, r[1..]);
    assert Run(p1, articleId, summaryId, r[1..]) == Run(p2, articleId, summaryId, r[2..]);
    assert r[2..][1..] == [];
  }

  /** With the quota used up, a round only changes the input box. */
  lemma RoundRefused(p: Panel, articleId: int, summaryId: int, q: string, reply: string)
    requires !p.loading && p.count >= MaxFree
    ensures Run(p, articleId, summaryId, Round(q, reply)) == p.(question := q)
  {
    RunThree(p, articleId, summaryId, Round(q, reply));
  }

  /** Five answered questions use up the quota; a sixth is refused and
      leaves the panel as it was. */
  lemma FiveRoundsExhaust(articleId: int, summaryId: int)
    ensures var p := Run(Init(), articleId, summaryId,
                         Round("q", "ok") + Round("q", "ok") + Round("q", "ok")
                         + Round("q", "ok") + Round("q", "ok"));
            && p.count == MaxFree && p.reply == "ok" && !p.loading
            && Run(p, articleId, summaryId, Round("q", "ok")) == p.(question := "q")
  {
    var r := Round("q", "ok");
    assert !IsBlank(Js, "q") by { assert !IsSpace(Js, "q"[0]); }
    var p0 := Init();
    RoundAnswered(p0, articleId, summaryId, "q", "ok");
    var p1 := Run(p0, articleId, summaryId, r);
    RoundAnswered(p1, articleId, summaryId, "q", "ok");
    var p2 := Run(p1, articleId, summaryId, r);
    RoundAnswered(p2, articleId, summaryId, "q", "ok");
    var p3 := Run(p2, articleId, summaryId, r);
    RoundAnswered(p3, articleId, summaryId, "q", "ok");
    var p4 := Run(p3, articleId, summaryId, r);
    RoundAnswered(p4, articleId, summaryId, "q", "ok");
    var p5 := Run(p4, articleId, summaryId, r);
    RunAppend(p0, articleId, summaryId, r, r);
    RunAppend(p0, articleId, summaryId, r + r, r);
    RunAppend(p0, articleId, summaryId, r + r + r, r);
    RunAppend(p0, articleId, summaryId, r + r + r + r, r);
    RoundRefused(p5, articleId, summaryId, "q", "ok");
  }

  lemma {:induction false} RunAppend(p: Panel, articleId: int, summaryId: int, a: seq<Event>, b: seq<Event>)
    ensures Run(p, articleId, summaryId, a + b) == Run(Run(p, articleId, summaryId, a), articleId, summaryId, b)
    decreases |a|
  {
    if a == [] {
      assert a + b == b;
    } else {
      assert (a + b)[1..] == a[1..] + b;
      RunAppend(Step(p, articleId, summaryId, a[0]), articleId, summaryId, a[1..], b);
    }
  }
}

=== FILE: chat_page.dfy ===
/** The article chat page (`ChatPage`): on mount it fetches the user's
    summaries, handles a 401 by clearing the credential store and sending
    the browser to the login page, and looks up the summary named in the
    route. */
module ChatPage {
  import opened Values
  import Session

  const NotFound: string := "Article not found."
  const LoadFailed: string := "Failed to load session context."
  const ContextMissing: string := "Context missing."

  /** A summary as the list endpoint serialises it: its own `id` and the
      `id` of its article. */
  datatype Item = Item(id: int, articleId: int)

  /** The JSON body: an array of summaries, `null`, or anything else (an
      object such as the onboarding response, a number, a string). */
  datatype SummariesBody = ArrayBody(items: seq<Item>) | NullBody | OtherBody

  /** How `GET /api/summaries/` ends: rejected, or a status with a body that
      is JSON (`Some`) or not (`None`). */
  datatype SummariesReply = Rejected | Replied(status: int, body: Option<SummariesBody>)

  datatype Page = Page(loading: bool, error: Option<string>, data: Option<Item>)

  datatype Loaded = Loaded(page: Page, store: Session.Store, navigate: Option<string>)

  /** The page before the fetch settles. */
  function Initial(): Page {
    Page(true, None, None)
  }

  /** `all.find(item => item.id === Number(id))`, where `target` is
      `Number(id)` when it is an integer and `None` when it is not (`NaN`
      or a fraction, which no integer id equals). */
  function FindById(items: seq<Item>, target: Option<int>): (r: Option<Item>)
    ensures r.Some? ==> target.Some? && exists k | 0 <= k < |items| :: items[k] == r.value && FirstMatch(items, target.value, k)
    ensures r.None? <==> target.None? || forall k | 0 <= k < |items| :: items[k].id != target.value
  {
    if target.None? || items == [] then None
    else if items[0].id == target.value then
      assert FirstMatch(items, target.value, 0);
      Some(items[0])
    else
      var r := FindById(items[1..], target);
      if r.Some? then
        var k :| 0 <= k < |items[1..]| && items[1..][k] == r.value && FirstMatch(items[1..], target.value, k);
        assert FirstMatch(items, target.value, k + 1);
        r
      else
        assert forall k | 1 <= k < |items| :: items[k] == items[1..][k - 1];
        r
  }

  /** Position `k` holds the first item whose id is `target`. */
  predicate FirstMatch(items: seq<Item>, target: int, k: nat) {
    k < |items| && items[k].id == target && forall j | 0 <= j < k :: items[j].id != target
  }

  /** The second `.then`: an absent match sets "Article not found."; either
      way the data is set and loading ends. */
  function Settle(found: Option<Item>): (p: Page)
    ensures !p.loading && p.data == found
    ensures p.error.Some? <==> found.None?
    ensures found.None? ==> p.error == Some(NotFound)
  {
    Page(false, if found.None? then Some(NotFound) else None, found)
  }

  /** The `.catch`: the data stays `null`. */
  function Fail(): (p: Page)
    ensures !p.loading && p.error == Some(LoadFailed) && p.data.None?
  {
    Page(false, Some(LoadFailed), None)
  }

  /** The whole effect. A 401 clears the store and redirects, and then the
      chain goes on with an undefined list, which finds nothing. A body
      that is not JSON, and a JSON body that is neither an array nor `null`
      (calling `find` on it throws), end in the `.catch`. */
  function Load(s: Session.Store, target: Option<int>, reply: SummariesReply): (r: Loaded)
    ensures !r.page.loading
    ensures r.store != s || r.navigate.Some? <==> reply.Replied? && reply.status == 401
    ensures reply.Replied? && reply.status == 401 ==>
              && r.store == map[] && r.navigate == Some(Session.LoginPath)
              && r.page == Page(false, Some(NotFound), None)
    ensures r.page.data.Some? ==>
              && reply.Replied? && reply.status != 401
              && reply.body.Some? && reply.body.value.ArrayBody?
              && r.page.data == FindById(reply.body.value.items, target)
              && r.page.error.None?
    ensures reply.Replied? && reply.status != 401 && reply.body.Some? && !reply.body.value.OtherBody? ==>
              && r.store == s && r.navigate.None?
              && r.page == Settle(if reply.body.value.ArrayBody?
                                  then FindById(reply.body.value.items, target) else None)
    ensures r.page.error == Some(NotFound) <==>
              && reply.Replied?
              && (|| reply.status == 401
                  || (&& reply.body.Some? && !reply.body.value.OtherBody?
                      && (reply.body.value.NullBody? || FindById(reply.body.value.items, target).None?)))
    ensures r.page.error == Some(LoadFailed) <==>
              reply.Rejected?
              || (reply.status != 401 && (reply.body.None? || reply.body.value.OtherBody?))
  {
    match reply
    case Rejected => Loaded(Fail(), s, None)
    case Replied(status, body) =>
      if status == 401 then Loaded(Settle(None), Session.Clear(s), Some(Session.LoginPath))
      else
        match body
        case None => Loaded(Fail(), s, None)
        case Some(ArrayBody(items)) => Loaded(Settle(FindById(items, target)), s, None)
        case Some(NullBody) => Loaded(Settle(None), s, None)
        case Some(OtherBody) => Loaded(Fail(), s, None)
  }

  /** What the page renders. */
  datatype View = Spinner | ErrorView(message: string) | ChatView(articleId: int, summaryId: int)

  /** A spinner while loading; the error, or "Context missing.", when there
      is an error or no data; otherwise the chat panel for the found
      summary's article. */
  function Render(p: Page): (v: View)
    ensures v.Spinner? <==> p.loading
    ensures v.ChatView? <==> !p.loading && p.error.None? && p.data.Some?
    ensures v.ChatView? ==> v.articleId == p.data.value.articleId && v.summaryId == p.data.value.id
    ensures v.ErrorView? && p.error.Some? ==> v.message == p.error.value
  {
    if p.loading then Spinner
    else if p.error.Some? || p.data.None? then ErrorView(if p.error.Some? then p.error.value else ContextMissing)
    else ChatView(p.data.value.articleId, p.data.value.id)
  }

  /** The chat panel is shown exactly when the list came back as an array
      holding the requested id, and it is given the first such summary. */
  lemma ChatShownIffFound(s: Session.Store, target: Option<int>, reply: SummariesReply)
    ensures var v := Render(Load(s, target, reply).page);
            v.ChatView? <==>
              && reply.Replied? && reply.status != 401
              && reply.body.Some? && reply.body.value.ArrayBody?
              && FindById(reply.body.value.items, target).Some?
    ensures var v := Render(Load(s, target, reply).page);
            v.ChatView? ==>
              var it := FindById(reply.body.value.items, target).value;
              v.summaryId == it.id && v.articleId == it.articleId && Some(it.id) == target
  {
  }
}

=== FILE: config.dfy ===
/** The fetcher configuration (`news/news_fetcher/config.py`): the numeric
    defaults and the parsing of the comma-separated keyword list. The
    environment is a parameter: `env` is the value of `ECON_KEYWORDS` when
    set, and `DefaultKeywords` otherwise. */
module Config {
  import opened Text

  const GdeltMax: nat := 50
  const TopN: nat := 20
  const MinArticleLength: nat := 300

  const DefaultKeywords: string :=
    "inflation,gdp,recession,oil,sanction,trade,tariff,currency,layoffs,unemployment,economy,ai,company,war,conflit,sports"

  /** Non-empty, with no whitespace at either end. */
  predicate Stripped(x: string) {
    x != [] && !IsSpace(Py, x[0]) && !IsSpace(Py, x[|x| - 1])
  }

  /** What one piece contributes: its stripped form, unless that is empty. */
  function KeepOne(p: string): (r: seq<string>)
    ensures |r| <= 1
    ensures forall k | 0 <= k < |r| :: Stripped(r[k])
  {
    var t := Trim(Py, p);
    if t == [] then [] else [t]
  }

  /** `[k.strip() for k in pieces if k.strip()]`. */
  function KeepStripped(pieces: seq<string>): (r: seq<string>)
    ensures |r| <= |pieces|
    ensures forall k | 0 <= k < |r| :: Stripped(r[k])
    decreases |pieces|
  {
    if pieces == [] then [] else KeepOne(pieces[0]) + KeepStripped(pieces[1..])
  }

  /** A keyword is the stripped form of a non-blank piece. */
  predicate StripsTo(p: string, x: string) {
    !IsBlank(Py, p) && x == Trim(Py, p)
  }

  /** `x` is the stripped form of one of the pieces. */
  predicate KeywordOf(pieces: seq<string>, x: string) {
    exists j | 0 <= j < |pieces| :: StripsTo(pieces[j], x)
  }

  /** Exactly the stripped non-blank pieces are kept. */
  lemma {:induction false} KeepStrippedMembers(pieces: seq<string>, x: string)
    ensures x in KeepStripped(pieces) <==> KeywordOf(pieces, x)
    decreases |pieces|
  {
    if pieces != [] {
      KeepStrippedMembers(pieces[1..], x);
      if x in KeepOne(pieces[0]) {
        assert StripsTo(pieces[0], x);
      }
      if KeywordOf(pieces[1..], x) {
        var j :| 0 <= j < |pieces[1..]| && StripsTo(pieces[1..][j], x);
        assert StripsTo(pieces[j + 1], x);
      }
      if KeywordOf(pieces, x) {
        var j :| 0 <= j < |pieces| && StripsTo(pieces[j], x);
        if j > 0 {
          assert StripsTo(pieces[1..][j - 1], x);
        }
      }
    }
  }

  /** Stripping piece by piece keeps the pieces' order: the keywords of two
      lists are the keywords of the first followed by those of the second. */
  lemma {:induction false} KeepStrippedAppend(a: seq<string>, b: seq<string>)
    ensures KeepStripped(a + b) == KeepStripped(a) + KeepStripped(b)
    decreases |a|
  {
    if a == [] {
      assert a + b == b;
    } else {
      assert (a + b)[1..] == a[1..] + b;
      KeepStrippedAppend(a[1..], b);
      assert (a + b)[0] == a[0];
    }
  }

  /** `ECON_KEYWORDS`: the stripped, non-blank comma-separated pieces. */
  function ParseKeywords(env: string): (r: seq<string>)
    ensures |r| <= |SplitOn(env, ',')|
    ensures forall k | 0 <= k < |r| :: Stripped(r[k]) && ',' !in r[k]
  {
    var pieces := SplitOn(env, ',');
    var r := KeepStripped(pieces);
    assert forall k | 0 <= k < |r| :: ',' !in r[k] by {
      forall k | 0 <= k < |r|
        ensures ',' !in r[k]
      {
        KeepStrippedMembers(pieces, r[k]);
        var j :| 0 <= j < |pieces| && StripsTo(pieces[j], r[k]);
        TrimInfix(pieces[j]);
      }
    }
    r
  }

  /** The keywords are exactly the stripped non-blank comma-separated
      pieces of the variable. */
  lemma ParseKeywordsMembers(env: string, x: string)
    ensures x in ParseKeywords(env) <==> KeywordOf(SplitOn(env, ','), x)
  {
    KeepStrippedMembers(SplitOn(env, ','), x);
  }

  /** Every character of a stripped piece comes from the piece. */
  lemma TrimInfix(p: string)
    ensures forall c :: c in Trim(Py, p) ==> c in p
  {
    var r := Trim(Py, p);
    var a := LeadingSpaces(Py, p);
    forall c | c in r
      ensures c in p
    {
      var i :| 0 <= i < |r| && r[i] == c;
      assert p[a + i] == c;
    }
  }

  /** A keyword list given as one comma-joined string parses back to the
      stripped non-blank entries, in order. */
  lemma ParseJoined(parts: seq<string>)
    requires |parts| >= 1
    requires forall k | 0 <= k < |parts| :: ',' !in parts[k]
    ensures ParseKeywords(JoinWith(parts, ',')) == KeepStripped(parts)
  {
    SplitJoin(parts);
  }

  /** Splitting on a separator the parts do not contain gives them back. */
  lemma {:induction false} SplitJoin(parts: seq<string>)
    requires |parts| >= 1
    requires forall k | 0 <= k < |parts| :: ',' !in parts[k]
    ensures SplitOn(JoinWith(parts, ','), ',') == parts
    decreases |parts|
  {
    if |parts| > 1 {
      var x := parts[0];
      var tail := JoinWith(parts[1..], ',');
      var s := x + [','] + tail;
      assert JoinWith(parts, ',') == s;
      IndexOfFirst(x, ',', tail);
      assert s[..|x|] == x;
      assert s[|x| + 1..] == tail;
      assert SplitOn(s, ',') == [x] + SplitOn(tail, ',');
      SplitJoin(parts[1..]);
      assert parts == [x] + parts[1..];
    }
  }

  /** The first separator after a separator-free prefix ends it. */
  lemma {:induction false} IndexOfFirst(x: string, c: char, rest: string)
    requires c !in x
    ensures c in x + [c] + rest
    ensures IndexOf(x + [c] + rest, c) == |x|
    decreases |x|
  {
    var s := x + [c] + rest;
    assert s[|x|] == c;
    if x != [] {
      assert s[1..] == x[1..] + [c] + rest;
      IndexOfFirst(x[1..], c, rest);
    }
  }
}

=== FILE: gemini.dfy ===
/** The Gemini wrappers (`news/services/gemini.py`): each walks the models
    of `ModelPriority` in order and classifies each failure as an invalid
    key (stop and report it), a quota or availability problem (try the
    next model) or anything else (re-raise at once). The client call for
    each model is an oracle: `calls[k]` is what calling `ModelPriority[k]`
    does with the prompt. */
module Gemini {
  import opened Values
  import opened Text

  const ModelPriority: seq<string> := ["gemini-2.5-flash-lite"]

  const InvalidKeyMarkers: seq<string> := ["api_key_invalid", "invalid api key", "401"]
  const RetryMarkers: seq<string> := ["quota", "429", "not found", "limit"]

  const DefaultContext: string := "No specific news context found."

  /** One `generate_content` call: the response text, or an exception whose
      `str(e)` is `message`. */
  datatype Call = Returned(text: string) | Raised(message: string)

  datatype ErrorClass = InvalidKey | Retryable | Fatal

  /** How a wrapper ends: a reply; the invalid-key `RuntimeError` carrying
      the lower-cased message; the original exception re-raised; "All
      Gemini models exhausted"; or the unset-key `RuntimeError` raised
      before any model is tried. */
  datatype Outcome =
    | Reply(text: string)
    | KeyInvalid(details: string)
    | Reraised(message: string)
    | Exhausted
    | KeyUnset

  predicate Mentions(msg: string, markers: seq<string>) {
    exists k | 0 <= k < |markers| :: IsInfix(markers[k], msg)
  }

  /** The `except` block. `checkKey` is false for `compare_careers`, which
      has no invalid-key branch. The invalid-key test comes first, so it
      wins over the retry keywords. */
  function Classify(message: string, checkKey: bool): (c: ErrorClass)
    ensures c == InvalidKey <==> checkKey && Mentions(Lower(message), InvalidKeyMarkers)
    ensures c == Retryable <==>
              !(checkKey && Mentions(Lower(message), InvalidKeyMarkers))
              && Mentions(Lower(message), RetryMarkers)
  {
    var m := Lower(message);
    if checkKey && Mentions(m, InvalidKeyMarkers) then InvalidKey
    else if Mentions(m, RetryMarkers) then Retryable
    else Fatal
  }

  /** The models `from` up to `to` all failed retryably. */
  predicate Skipped(calls: seq<Call>, from: nat, to: nat, checkKey: bool)
    requires from <= to <= |calls|
  {
    forall k | from <= k < to :: calls[k].Raised? && Classify(calls[k].message, checkKey) == Retryable
  }

  /** How the loop ends and how many models it called. */
  datatype Attempt = Attempt(outcome: Outcome, tried: nat)

  /** The `for model in MODEL_PRIORITY` loop from model `i` on: the first
      model that does not fail retryably decides the outcome, and when every
      one does, the models are exhausted. */
  function FallbackFrom(calls: seq<Call>, checkKey: bool, i: nat): (r: Attempt)
    requires i <= |calls|
    ensures i <= r.tried <= |calls|
    ensures !r.outcome.KeyUnset?
    ensures r.outcome.Exhausted? <==> r.tried == |calls| && Skipped(calls, i, |calls|, checkKey)
    ensures !r.outcome.Exhausted? ==> i < r.tried && Skipped(calls, i, r.tried - 1, checkKey)
    ensures r.outcome.Reply? <==> i < r.tried && calls[r.tried - 1].Returned?
    ensures r.outcome.Reply? ==> r.outcome.text == calls[r.tried - 1].text
    ensures r.outcome.KeyInvalid? <==>
              i < r.tried && calls[r.tried - 1].Raised?
              && Classify(calls[r.tried - 1].message, checkKey) == InvalidKey
    ensures r.outcome.KeyInvalid? ==> r.outcome.details == Lower(calls[r.tried - 1].message)
    ensures r.outcome.Reraised? <==>
              i < r.tried && calls[r.tried - 1].Raised?
              && Classify(calls[r.tried - 1].message, checkKey) == Fatal
    ensures r.outcome.Reraised? ==> r.outcome.message == calls[r.tried - 1].message
    decreases |calls| - i
  {
    if i == |calls| then Attempt(Exhausted, i)
    else
      match calls[i]
      case Returned(text) => Attempt(Reply(text), i + 1)
      case Raised(message) =>
        match Classify(message, checkKey)
        case InvalidKey => Attempt(KeyInvalid(Lower(message)), i + 1)
        case Fatal => Attempt(Reraised(message), i + 1)
        case Retryable => FallbackFrom(calls, checkKey, i + 1)
  }

  /** The whole loop, from the first model. */
  function Fallback(calls: seq<Call>, checkKey: bool): Attempt {
    FallbackFrom(calls, checkKey, 0)
  }

  /** The loop as written: one oracle call per model of `ModelPriority`, in
      order, stopping at the first that does not fail retryably; it ends
      as the fallback says. */
  method TryModels(calls: seq<Call>, checkKey: bool) returns (outcome: Outcome, tried: nat)
    requires |calls| == |ModelPriority|
    ensures Attempt(outcome, tried) == Fallback(calls, checkKey)
    ensures outcome.Exhausted? ==> tried == |ModelPriority|
  {
    tried := 0;
    while tried < |calls|
      invariant tried <= |calls|
      invariant FallbackFrom(calls, checkKey, tried) == Fallback(calls, checkKey)
    {
      var call := calls[tried];
      tried := tried + 1;
      match call
      case Returned(text) =>
        return Reply(text), tried;
      case Raised(message) =>
        var c := Classify(message, checkKey);
        if c == InvalidKey {
          return KeyInvalid(Lower(message)), tried;
        } else if c == Fatal {
          return Reraised(message), tried;
        }
    }
    outcome := Exhausted;
  }

  /** `article_conversation`: an unset key raises before any model call;
      otherwise the fallback loop with the invalid-key branch decides. */
  method ArticleConversation(keySet: bool, calls: seq<Call>) returns (outcome: Outcome, tried: nat)
    requires |calls| == |ModelPriority|
    ensures !keySet ==> outcome == KeyUnset && tried == 0
    ensures keySet ==> Attempt(outcome, tried) == Fallback(calls, true)
  {
    if !keySet {
      return KeyUnset, 0;
    }
    outcome, tried := TryModels(calls, true);
  }

  /** `compare_careers`: no key check and no invalid-key branch, so an error
      mentioning an invalid key is re-raised unless it also mentions a
      retry keyword. */
  method CompareCareers(calls: seq<Call>) returns (outcome: Outcome, tried: nat)
    requires |calls| == |ModelPriority|
    ensures Attempt(outcome, tried) == Fallback(calls, false)
    ensures !outcome.KeyInvalid? && !outcome.KeyUnset?
    ensures outcome.Reraised? <==>
              0 < tried && calls[tried - 1].Raised?
              && !Mentions(Lower(calls[tried - 1].message), RetryMarkers)
  {
    outcome, tried := TryModels(calls, false);
  }

  /** One retrieved news item, as the search payload gives it. */
  datatype Hit = Hit(title: string, snippet: string)

  /** The retrieval step: the search raised (anywhere, including building
      the service), or returned these hits. */
  datatype Retrieval = SearchFailed | Found(hits: seq<Hit>)

  function HitLine(h: Hit): string {
    "- " + h.title + ": " + h.snippet + "..."
  }

  /** `"\n\n".join(...)` over the hit lines. */
  function JoinHits(hits: seq<Hit>): (r: string)
    requires |hits| > 0
    decreases |hits|
  {
    if |hits| == 1 then HitLine(hits[0]) else HitLine(hits[0]) + "\n\n" + JoinHits(hits[1..])
  }

  datatype Context = Context(text: string, used: bool)

  /** The retrieval fallback: the context is used iff the search returned a
      non-empty list without raising; otherwise the default text stays. */
  function RetrievalContext(r: Retrieval): (c: Context)
    ensures c.used <==> r.Found? && |r.hits| > 0
    ensures !c.used ==> c.text == DefaultContext
    ensures c.used ==> c.text == JoinHits(r.hits)
  {
    if r.Found? && |r.hits| > 0 then Context(JoinHits(r.hits), true) else Context(DefaultContext, false)
  }

  /** `general_conversation`: an unset key raises first; a failed search
      never stops the call; the reply comes with `used_context`, and the
      fallback loop with the invalid-key branch decides the outcome.
      `contextText` is the retrieved-context part of the prompt (`""` when
      the key check raises before a prompt is built). The rest of the
      prompt is fixed text around it and the question, and the prompt only
      reaches the call oracle, whose outcomes are given. */
  method GeneralConversation(keySet: bool, retrieval: Retrieval, calls: seq<Call>)
    returns (outcome: Outcome, usedContext: bool, contextText: string, tried: nat)
    requires |calls| == |ModelPriority|
    ensures !keySet ==> outcome == KeyUnset && tried == 0 && contextText == ""
    ensures keySet ==> Attempt(outcome, tried) == Fallback(calls, true)
    ensures usedContext <==> keySet && retrieval.Found? && |retrieval.hits| > 0
    ensures keySet && usedContext ==> contextText == JoinHits(retrieval.hits)
    ensures keySet && !usedContext ==> contextText == DefaultContext
  {
    if !keySet {
      return KeyUnset, false, "", 0;
    }
    var context := RetrievalContext(retrieval);
    usedContext, contextText := context.used, context.text;
    outcome, tried := TryModels(calls, true);
  }

  /** With the single model configured, one retryable failure exhausts the
      list: the wrappers raise "All Gemini models exhausted" after one call. */
  lemma OneModelExhausts(calls: seq<Call>, checkKey: bool)
    requires |calls| == |ModelPriority|
    requires calls[0].Raised? && Classify(calls[0].message, checkKey) == Retryable
    ensures Fallback(calls, checkKey) == Attempt(Exhausted, 1)
  {
    assert FallbackFrom(calls, checkKey, 1) == Attempt(Exhausted, 1);
  }

  /** A worked example of the order of the tests in the `except` block:
      an error mentioning both a 429 and a 401 stops at once as an invalid
      key, except in `compare_careers`, where it is retryable. */
  lemma InvalidKeyBeatsRetry()
    ensures Classify("429 401", true) == InvalidKey
    ensures Classify("429 401", false) == Retryable
  {
    var m := "429 401";
    LowerKeepsLowercase(m);
    assert m[4..7] == InvalidKeyMarkers[2];
    assert OccursAt(InvalidKeyMarkers[2], m, 4);
    assert m[0..3] == RetryMarkers[1];
    assert OccursAt(RetryMarkers[1], m, 0);
  }
}

=== FILE: general_chat.dfy ===
/** The general-purpose chat panel (`GeneralChatPanel`): an append-only
    message log that starts with one AI greeting, an input box, and a
    `loading` flag that lets at most one request be in flight. Each handler
    is an atomic step; the answer to a request arrives later as its own
    event. */
module GeneralChat {
  import opened Values
  import opened Text
  import opened Transport

  datatype Role = User | Ai

  datatype Message = Message(role: Role, content: string)

  datatype Panel = Panel(messages: seq<Message>, question: string, loading: bool)

  const Greeting: string :=
    "\U{1F44B} Hello! I'm your Job Market AI assistant. How can I help you today? "
    + "Whether it's career advice, interview tips, or market trends, I'm here to chat!"
  const Warning: string := "\U{26A0}\U{FE0F} "
  const ErrorPrefix: string := Warning + "Error: "
  const ErrorFallback: string := "Failed to get AI response"
  const EmptyReply: string := Warning + "AI returned an empty response."
  const ConnectionFailed: string := Warning + "Connection failed. Please check your network and try again."

  /** The log starts with the greeting and alternates between questions
      and answers, and a request is in flight exactly when the last entry
      is a question still waiting for its answer. */
  ghost predicate Valid(p: Panel) {
    && |p.messages| >= 1
    && p.messages[0].role == Ai
    && (forall i | 1 <= i < |p.messages| :: p.messages[i].role != p.messages[i - 1].role)
    && (p.loading <==> p.messages[|p.messages| - 1].role == User)
  }

  /** The panel as first rendered. */
  function Init(): (p: Panel)
    ensures Valid(p)
    ensures |p.messages| == 1 && p.messages[0].role == Ai && p.messages[0].content == Greeting
    ensures !p.loading && p.question == ""
  {
    Panel([Message(Ai, Greeting)], "", false)
  }

  /** Typing in the input box. */
  function Edit(p: Panel, text: string): (r: Panel)
    ensures Valid(p) ==> Valid(r)
    ensures r.question == text && r.messages == p.messages && r.loading == p.loading
  {
    p.(question := text)
  }

  /** The result of `askAI`'s synchronous part, with the question sent in
      the request body when a request is made. */
  datatype Submitted = Submitted(next: Panel, request: Option<string>)

  /** `askAI` up to the `await`: refuses a blank question or a second
      request; otherwise logs the question as typed (untrimmed), sets
      `loading`, clears the input, and sends the question it had before
      clearing. */
  function Submit(p: Panel): (r: Submitted)
    ensures r.request.None? <==> IsBlank(Js, p.question) || p.loading
    ensures r.request.None? ==> r.next == p
    ensures r.request.Some? ==>
              && r.request.value == p.question
              && r.next.messages == p.messages + [Message(User, p.question)]
              && r.next.loading && r.next.question == ""
    ensures Valid(p) ==> Valid(r.next)
  {
    if Trim(Js, p.question) == "" || p.loading then Submitted(p, None)
    else Submitted(Panel(p.messages + [Message(User, p.question)], "", true), Some(p.question))
  }

  /** The text of the one AI entry an outcome produces. */
  function AnswerText(o: Outcome): (t: string)
    ensures o.Thrown? ==> t == ConnectionFailed
    ensures o.Answered? && !o.ok ==> t == ErrorPrefix + Or(o.body.error, ErrorFallback)
    ensures o.Answered? && o.ok && Truthy(o.body.reply) ==> t == o.body.reply.value
    ensures o.Answered? && o.ok && !Truthy(o.body.reply) ==> t == EmptyReply
    ensures t != ""
  {
    match o
    case Thrown => ConnectionFailed
    case Answered(ok, body) =>
      if !ok then ErrorPrefix + Or(body.error, ErrorFallback)
      else Or(body.reply, EmptyReply)
  }

  /** `askAI` after the `await`: appends exactly one AI entry and, in the
      `finally` block, clears `loading`; earlier entries and the input box
      are left alone. */
  function Resolve(p: Panel, o: Outcome): (r: Panel)
    ensures |r.messages| == |p.messages| + 1 && r.messages[..|p.messages|] == p.messages
    ensures r.messages[|p.messages|] == Message(Ai, AnswerText(o))
    ensures !r.loading && r.question == p.question
    ensures Valid(p) && p.loading ==> Valid(r)
  {
    Panel(p.messages + [Message(Ai, AnswerText(o))], p.question, false)
  }

  /** An accepted question and its answer grow the log by exactly two
      entries, the question then the answer, and leave the panel idle. */
  lemma SubmitThenResolve(p: Panel, o: Outcome)
    requires Valid(p)
    requires Submit(p).request.Some?
    ensures var r := Resolve(Submit(p).next, o);
            && r.messages == p.messages + [Message(User, p.question), Message(Ai, AnswerText(o))]
            && !r.loading && r.question == "" && Valid(r)
  {
  }

  /** The events the panel reacts to. `Deliver` is the answer to the request
      in flight; it arrives only while one is. */
  datatype Event = Type(text: string) | Send | Deliver(outcome: Outcome)

  function Step(p: Panel, e: Event): Panel {
    match e
    case Type(t) => Edit(p, t)
    case Send => Submit(p).next
    case Deliver(o) => if p.loading then Resolve(p, o) else p
  }

  function Run(p: Panel, es: seq<Event>): Panel
    decreases |es|
  {
    if es == [] then p else Run(Step(p, es[0]), es[1..])
  }

  /** Whatever happens, the log only grows at its end and keeps alternating
      questions and answers. */
  lemma {:induction false} RunKeepsLog(p: Panel, es: seq<Event>)
    requires Valid(p)
    ensures Valid(Run(p, es))
    ensures |Run(p, es).messages| >= |p.messages|
    ensures Run(p, es).messages[..|p.messages|] == p.messages
    decreases |es|
  {
    if es != [] {
      var q := Step(p, es[0]);
      assert Valid(q) && |q.messages| >= |p.messages| && q.messages[..|p.messages|] == p.messages by {
        match es[0]
        case Type(t) =>
        case Send =>
        case Deliver(o) =>
      }
      RunKeepsLog(q, es[1..]);
      var r := Run(q, es[1..]);
      assert r.messages[..|q.messages|][..|p.messages|] == r.messages[..|p.messages|];
    }
  }
}

=== FILE: news_utils.dfy ===
/** The fetcher's helpers (`news/news_fetcher/utils.py`): the word count,
    the GDELT query built from the keywords with `quote_plus`, the
    normalisation of a raw GDELT record with its fallback chains, and the
    guard around date parsing. The raw record is a map from keys to
    strings; the date parser is a parameter. */
module NewsUtils {
  import opened Values
  import opened Text

  /** `word_count(text)` for a possibly-absent text: `None` and `""` have
      no words; otherwise the number of places where a word starts. */
  function WordCountOf(text: Option<string>): (n: nat)
    ensures !Truthy(text) ==> n == 0
    ensures Truthy(text) ==> n == RunStarts(text.value, true)
  {
    if Truthy(text) then WordCountIsRunStarts(text.value); WordCount(text.value) else 0
  }

  // ---------------------------------------------------------------------
  // quote_plus: UTF-8, then percent-encoding with `+` for space
  // ---------------------------------------------------------------------

  type Byte = x: int | 0 <= x < 256

  /** The UTF-8 encoding of one Unicode scalar value. */
  function Utf8(c: char): (r: seq<Byte>)
    ensures 1 <= |r| <= 4
    ensures (|r| == 1) <==> (c as int) < 0x80
    ensures |r| == 1 ==> r[0] == c as int
  {
    var n := c as int;
    if n < 0x80 then [n]
    else if n < 0x800 then [0xC0 + n / 64, 0x80 + n % 64]
    else if n < 0x10000 then [0xE0 + n / 4096, 0x80 + (n / 64) % 64, 0x80 + n % 64]
    else [0xF0 + n / 262144, 0x80 + (n / 4096) % 64, 0x80 + (n / 64) % 64, 0x80 + n % 64]
  }

  function EncodeUtf8(s: string): seq<Byte>
    decreases |s|
  {
    if s == [] then [] else Utf8(s[0]) + EncodeUtf8(s[1..])
  }

  /** The bytes `quote` never escapes: ASCII letters, digits and `_.-~`. */
  predicate Unreserved(b: int) {
    || 'A' as int <= b <= 'Z' as int
    || 'a' as int <= b <= 'z' as int
    || '0' as int <= b <= '9' as int
    || b == '_' as int || b == '.' as int || b == '-' as int || b == '~' as int
  }

  const HexDigits: string := "0123456789ABCDEF"

  /** The characters an encoded keyword is made of. */
  predicate QuotedChar(c: char) {
    Unreserved(c as int) || c == '+' || c == '%'
  }

  /** One byte: kept when unreserved, `+` for a space, `%XX` (upper-case
      hexadecimal) otherwise. */
  function QuoteByte(b: Byte): (r: string)
    ensures 1 <= |r| <= 3
    ensures forall i | 0 <= i < |r| :: QuotedChar(r[i])
  {
    if Unreserved(b) then [b as char]
    else if b == 32 then "+"
    else ['%', HexDigits[b / 16], HexDigits[b % 16]]
  }

  function QuoteBytes(bs: seq<Byte>): (r: string)
    ensures forall i | 0 <= i < |r| :: QuotedChar(r[i])
    decreases |bs|
  {
    if bs == [] then []
    else
      var h := QuoteByte(bs[0]);
      var t := QuoteBytes(bs[1..]);
      assert forall i | |h| <= i < |h + t| :: (h + t)[i] == t[i - |h|];
      h + t
  }

  /** `quote_plus(k)` with its default arguments: nothing is left unescaped
      but the unreserved set, so the result never contains a space. */
  function QuotePlus(s: string): (r: string)
    ensures forall i | 0 <= i < |r| :: QuotedChar(r[i])
    ensures ' ' !in r
  {
    QuoteBytes(EncodeUtf8(s))
  }

  /** The value of a hexadecimal digit as `quote` writes it. */
  function HexValue(c: char): Option<int> {
    if '0' <= c <= '9' then Some(c as int - '0' as int)
    else if 'A' <= c <= 'F' then Some(c as int - 'A' as int + 10)
    else None
  }

  /** The decoder a server applies to a form-encoded value: `+` is a space,
      `%XX` a byte, an unreserved character itself; anything else is
      rejected. */
  function Unquote(t: string): Option<seq<Byte>>
    decreases |t|
  {
    if t == [] then Some([])
    else
      var head: Option<(Byte, nat)> :=
        if t[0] == '+' then Some((32, 1))
        else if t[0] == '%' && |t| >= 3 && HexValue(t[1]).Some? && HexValue(t[2]).Some? then
          Some((16 * HexValue(t[1]).value + HexValue(t[2]).value, 3))
        else if Unreserved(t[0] as int) then Some((t[0] as int, 1))
        else None;
      if head.None? then None
      else
        match Unquote(t[head.value.1..])
        case None => None
        case Some(rest) => Some([head.value.0] + rest)
  }

  lemma HexRoundTrip(d: int)
    requires 0 <= d < 16
    ensures HexValue(HexDigits[d]) == Some(d)
  {
  }

  /** Decoding one encoded byte in front of anything else. */
  lemma UnquoteByte(b: Byte, rest: string)
    ensures Unquote(QuoteByte(b) + rest) ==
              match Unquote(rest) case None => None case Some(r) => Some([b] + r)
  {
    var t := QuoteByte(b) + rest;
    if Unreserved(b) {
      assert t[1..] == rest;
    } else if b == 32 {
      assert t[1..] == rest;
    } else {
      HexRoundTrip(b / 16);
      HexRoundTrip(b % 16);
      assert t[3..] == rest;
    }
  }

  /** Percent-decoding undoes `quote_plus` on every byte string. */
  lemma {:induction false} UnquoteQuote(bs: seq<Byte>)
    ensures Unquote(QuoteBytes(bs)) == Some(bs)
    decreases |bs|
  {
    if bs != [] {
      UnquoteQuote(bs[1..]);
      UnquoteByte(bs[0], QuoteBytes(bs[1..]));
      assert [bs[0]] + bs[1..] == bs;
    }
  }

  /** ASCII text made only of unreserved characters is left as it is. */
  lemma {:induction false} QuotePlainAscii(s: string)
    requires forall i | 0 <= i < |s| :: Unreserved(s[i] as int)
    ensures QuotePlus(s) == s
    decreases |s|
  {
    if s != [] {
      QuotePlainAscii(s[1..]);
      assert EncodeUtf8(s) == [s[0] as int] + EncodeUtf8(s[1..]);
      assert [s[0]] + s[1..] == s;
    }
  }

  // ---------------------------------------------------------------------
  // build_gdelt_query and splitting it back
  // ---------------------------------------------------------------------

  const OrSep: string := " OR "

  /** `sep.join(parts)`; the empty list joins to the empty string. */
  function JoinSep(parts: seq<string>, sep: string): string
    decreases |parts|
  {
    if parts == [] then []
    else if |parts| == 1 then parts[0]
    else parts[0] + sep + JoinSep(parts[1..], sep)
  }

  function QuoteAll(keywords: seq<string>): (r: seq<string>)
    ensures |r| == |keywords|
    ensures forall k | 0 <= k < |r| :: r[k] == QuotePlus(keywords[k])
    decreases |keywords|
  {
    if keywords == [] then [] else [QuotePlus(keywords[0])] + QuoteAll(keywords[1..])
  }

  /** `build_gdelt_query(keywords)`: the encoded keywords joined by ` OR `
      in parentheses. */
  function BuildGdeltQuery(keywords: seq<string>): (q: string)
    ensures |q| >= 2 && q[0] == '(' && q[|q| - 1] == ')'
    ensures q[1..|q| - 1] == JoinSep(QuoteAll(keywords), OrSep)
  {
    var inner := JoinSep(QuoteAll(keywords), OrSep);
    var q := "(" + inner + ")";
    assert q[1..|q| - 1] == inner;
    q
  }

  /** The first occurrence of `sep` in `s` at or after `i`. */
  function Find(s: string, sep: string, i: nat): (r: Option<nat>)
    requires |sep| > 0
    ensures r.Some? ==> i <= r.value && OccursAt(sep, s, r.value)
    ensures r.Some? ==> forall k | i <= k < r.value :: !OccursAt(sep, s, k)
    ensures r.None? ==> forall k | i <= k :: !OccursAt(sep, s, k)
    decreases |s| - i
  {
    if i + |sep| > |s| then None
    else if OccursAt(sep, s, i) then Some(i)
    else Find(s, sep, i + 1)
  }

  /** Python `s.split(sep)`: the pieces between the non-overlapping
      occurrences of `sep`, found left to right. */
  function SplitSep(s: string, sep: string): (r: seq<string>)
    requires |sep| > 0
    ensures |r| >= 1
    decreases |s|
  {
    match Find(s, sep, 0)
    case None => [s]
    case Some(k) => [s[..k]] + SplitSep(s[k + |sep|..], sep)
  }

  /** A separator starting with a character the prefix lacks is first found
      right after the prefix. */
  lemma FindAfter(x: string, sep: string, rest: string)
    requires |sep| > 0 && sep[0] !in x
    ensures Find(x + sep + rest, sep, 0) == Some(|x|)
  {
    var s := x + sep + rest;
    assert s[|x|..|x| + |sep|] == sep;
    assert OccursAt(sep, s, |x|);
    forall k | 0 <= k < |x|
      ensures !OccursAt(sep, s, k)
    {
      assert s[k] == x[k];
    }
  }

  /** Without the separator's first character there is no separator. */
  lemma FindNone(x: string, sep: string)
    requires |sep| > 0 && sep[0] !in x
    ensures Find(x, sep, 0).None?
  {
    forall k | 0 <= k
      ensures !OccursAt(sep, x, k)
    {
      if k < |x| {
        assert x[k] != sep[0];
      }
    }
  }

  /** Splitting the query's inside on ` OR ` gives back the encoded
      keywords, in order: `n` keywords are separated by exactly `n - 1`
      separators because no encoded keyword contains a space. */
  lemma QueryKeywordsRecoverable(keywords: seq<string>)
    requires |keywords| >= 1
    ensures var q := BuildGdeltQuery(keywords);
            SplitSep(q[1..|q| - 1], OrSep) == QuoteAll(keywords)
  {
    SplitJoinSep(QuoteAll(keywords));
  }

  lemma {:induction false} SplitJoinSep(parts: seq<string>)
    requires |parts| >= 1
    requires forall k | 0 <= k < |parts| :: ' ' !in parts[k]
    ensures SplitSep(JoinSep(parts, OrSep), OrSep) == parts
    decreases |parts|
  {
    if |parts| == 1 {
      FindNone(parts[0], OrSep);
    } else {
      var tail := JoinSep(parts[1..], OrSep);
      var s := parts[0] + OrSep + tail;
      assert JoinSep(parts, OrSep) == s;
      FindAfter(parts[0], OrSep, tail);
      assert s[..|parts[0]|] == parts[0];
      assert s[|parts[0]| + |OrSep|..] == tail;
      assert SplitSep(s, OrSep) == [parts[0]] + SplitSep(tail, OrSep);
      SplitJoinSep(parts[1..]);
      assert parts == [parts[0]] + parts[1..];
    }
  }

  // ---------------------------------------------------------------------
  // normalize_article
  // ---------------------------------------------------------------------

  /** A raw GDELT record: its string-valued keys. */
  type Raw = map<string, string>

  /** No key before position `k` has a truthy value. */
  predicate NoneTruthyBefore(a: Raw, keys: seq<string>, k: nat) {
    forall j | 0 <= j < k && j < |keys| :: !Truthy(Get(a, keys[j]))
  }

  /** `v` is the value of some key in `keys` and no earlier key is truthy. */
  predicate FirstTruthyAt(a: Raw, keys: seq<string>, v: Option<string>) {
    exists k | 0 <= k < |keys| :: Get(a, keys[k]) == v && NoneTruthyBefore(a, keys, k)
  }

  /** The value of the first key in `keys` whose value is truthy. */
  function FirstTruthy(a: Raw, keys: seq<string>): (r: Option<string>)
    ensures r.Some? ==> r.value != "" && exists k | 0 <= k < |keys| :: Get(a, keys[k]) == r
    ensures r.Some? ==> FirstTruthyAt(a, keys, r)
    ensures r.None? <==> forall k | 0 <= k < |keys| :: !Truthy(Get(a, keys[k]))
    decreases |keys|
  {
    if keys == [] then None
    else if Truthy(Get(a, keys[0])) then
      assert NoneTruthyBefore(a, keys, 0);
      Get(a, keys[0])
    else
      var r := FirstTruthy(a, keys[1..]);
      assert forall k | 1 <= k < |keys| :: keys[k] == keys[1..][k - 1];
      if r.Some? then
        var k :| 0 <= k < |keys[1..]| && Get(a, keys[1..][k]) == r && NoneTruthyBefore(a, keys[1..], k);
        assert NoneTruthyBefore(a, keys, k + 1);
        assert Get(a, keys[k + 1]) == r;
        r
      else r
  }

  /** The chain of two keys, spelled out. */
  lemma FirstTruthyPair(a: Raw, k1: string, k2: string)
    ensures FirstTruthy(a, [k1, k2]) ==
              if Truthy(Get(a, k1)) then Get(a, k1)
              else if Truthy(Get(a, k2)) then Get(a, k2) else None
  {
    assert [k1, k2][1..] == [k2];
    assert [k2][1..] == [];
  }

  /** The chain of three keys, spelled out. */
  lemma FirstTruthyTriple(a: Raw, k1: string, k2: string, k3: string)
    ensures FirstTruthy(a, [k1, k2, k3]) ==
              if Truthy(Get(a, k1)) then Get(a, k1) else FirstTruthy(a, [k2, k3])
  {
    assert [k1, k2, k3][1..] == [k2, k3];
  }

  /** `a.get(k1) or a.get(k2) or d`. */
  function PairOr(a: Raw, k1: string, k2: string, d: string): (r: string)
    ensures r == Or(FirstTruthy(a, [k1, k2]), d)
  {
    FirstTruthyPair(a, k1, k2);
    Or(OrRaw(Get(a, k1), Get(a, k2)), d)
  }

  /** `a.get("seendate") or a.get("publishdate") or a.get("pubDate")`. */
  function PublishedRaw(a: Raw): (r: Option<string>)
    ensures Truthy(r) ==> r == FirstTruthy(a, ["seendate", "publishdate", "pubDate"])
    ensures !Truthy(r) ==> r == Get(a, "pubDate")
  {
    FirstTruthyTriple(a, "seendate", "publishdate", "pubDate");
    FirstTruthyPair(a, "publishdate", "pubDate");
    OrRaw(OrRaw(Get(a, "seendate"), Get(a, "publishdate")), Get(a, "pubDate"))
  }

  /** A normalised article as the ranker and the saver see it. */
  datatype Article = Article(title: string, url: string, snippet: string,
                             publishedAtRaw: Option<string>, source: string)

  /** `normalize_article(a)`. `published_at_raw` is the last operand of its
      `or` chain when no key is truthy, so it is the value of `pubDate` as
      it is, which may be the empty string. */
  function NormalizeArticle(a: Raw): (r: Article)
    ensures r.title == Or(FirstTruthy(a, ["title", "titleplain"]), "")
    ensures r.url == Or(FirstTruthy(a, ["url", "urlapi"]), "")
    ensures r.snippet == Or(FirstTruthy(a, ["snippet", "description"]), "")
    ensures r.source == Or(FirstTruthy(a, ["domain", "source"]), "gdelt") && r.source != ""
    ensures Truthy(r.publishedAtRaw) ==> r.publishedAtRaw == FirstTruthy(a, ["seendate", "publishdate", "pubDate"])
    ensures !Truthy(r.publishedAtRaw) ==> r.publishedAtRaw == Get(a, "pubDate")
  {
    Article(
      PairOr(a, "title", "titleplain", ""),
      PairOr(a, "url", "urlapi", ""),
      PairOr(a, "snippet", "description", ""),
      PublishedRaw(a),
      PairOr(a, "domain", "source", "gdelt"))
  }

  /** A record with none of the date keys truthy but an empty `pubDate`
      keeps the empty string rather than `None`. */
  lemma EmptyPubDateKept()
    ensures NormalizeArticle(map["pubDate" := ""]).publishedAtRaw == Some("")
  {
  }

  // ---------------------------------------------------------------------
  // parse_published_at
  // ---------------------------------------------------------------------

  /** A parsed date: its wall-clock reading and its UTC offset in minutes,
      absent for a naive date. */
  datatype DateTime = DateTime(wall: int, offset: Option<int>)

  /** `parse_published_at(raw)`; `parse` is `dateutil.parser.parse`, with
      `None` standing for an exception. A naive result is made aware in
      UTC, keeping its wall-clock reading. */
  function ParsePublishedAt(raw: Option<string>, parse: string -> Option<DateTime>): (r: Option<DateTime>)
    ensures r.None? <==> !Truthy(raw) || parse(raw.value).None?
    ensures r.Some? ==> r.value.offset.Some? && r.value.wall == parse(raw.value).value.wall
    ensures r.Some? && parse(raw.value).value.offset.Some? ==> r == parse(raw.value)
    ensures r.Some? && parse(raw.value).value.offset.None? ==> r.value.offset == Some(0)
  {
    if !Truthy(raw) then None
    else
      match parse(raw.value)
      case None => None
      case Some(dt) => if dt.offset.None? then Some(dt.(offset := Some(0))) else Some(dt)
  }
}

=== FILE: playback.dfy ===
/** The read-aloud controller of the general chat panel (`handleSpeak` and
    the unmount effect): `speakingIdx` names the message whose button shows
    "Stop Reading". The speech engine is modelled by the utterance it is
    playing and the log of commands sent to it; the end and error callbacks
    of an utterance arrive as their own events. */
module Playback {
  import opened Values
  import Sanitize

  /** `speechSynthesis.cancel()` and `speechSynthesis.speak(u)`. */
  datatype Command = Cancel | Speak(utterance: nat, text: string)

  /** The engine: the utterance it is playing, the identity the next
      utterance will get, and every command it has received. */
  datatype Engine = Engine(playing: Option<nat>, nextId: nat, commands: seq<Command>)

  datatype Player = Player(speakingIdx: Option<nat>, engine: Engine)

  function Init(): (p: Player)
    ensures p.speakingIdx.None? && p.engine.playing.None? && p.engine.commands == []
  {
    Player(None, Engine(None, 0, []))
  }

  function CancelAll(e: Engine): (r: Engine)
    ensures r.playing.None? && r.nextId == e.nextId && r.commands == e.commands + [Cancel]
  {
    Engine(None, e.nextId, e.commands + [Cancel])
  }

  /** Every `speak` is sent right after a `cancel`, so two utterances never
      play over each other. */
  predicate CancelBeforeSpeak(cmds: seq<Command>) {
    forall k | 0 <= k < |cmds| && cmds[k].Speak? :: k > 0 && cmds[k - 1] == Cancel
  }

  /** `handleSpeak(text, idx)`: pressing the button of the message being
      read stops it; pressing any other stops whatever plays, then reads the
      sanitised text and marks `idx`. */
  function Toggle(p: Player, idx: nat, text: string, emoji: set<char>): (r: Player)
    requires '.' !in emoji && ' ' !in emoji
    ensures p.speakingIdx == Some(idx) ==>
              && r.speakingIdx.None? && r.engine.playing.None?
              && r.engine.commands == p.engine.commands + [Cancel]
    ensures p.speakingIdx != Some(idx) ==>
              && r.speakingIdx == Some(idx) && r.engine.playing == Some(p.engine.nextId)
              && r.engine.nextId == p.engine.nextId + 1
              && r.engine.commands == p.engine.commands
                   + [Cancel, Speak(p.engine.nextId, Sanitize.ForSpeech(text, emoji))]
    ensures CancelBeforeSpeak(p.engine.commands) ==> CancelBeforeSpeak(r.engine.commands)
  {
    if p.speakingIdx == Some(idx) then
      Player(None, CancelAll(p.engine))
    else
      var e := CancelAll(p.engine);
      var u := e.nextId;
      Player(Some(idx), Engine(Some(u), u + 1, e.commands + [Speak(u, Sanitize.ForSpeech(text, emoji))]))
  }

  /** Pressing the same button twice, starting from any other state, ends
      with nothing marked and nothing playing, after exactly one `speak`. */
  lemma ToggleTwice(p: Player, idx: nat, text: string, emoji: set<char>)
    requires '.' !in emoji && ' ' !in emoji
    requires p.speakingIdx != Some(idx)
    ensures var r := Toggle(Toggle(p, idx, text, emoji), idx, text, emoji);
            && r.speakingIdx.None? && r.engine.playing.None?
            && r.engine.commands == p.engine.commands
                 + [Cancel, Speak(p.engine.nextId, Sanitize.ForSpeech(text, emoji)), Cancel]
  {
  }

  /** Utterance `u` ends or fails: the engine stops it if it is the one
      playing, and its callback sets `speakingIdx` to null, whichever
      utterance that was. */
  function Finished(p: Player, u: nat): (r: Player)
    ensures r.speakingIdx.None?
    ensures r.engine.commands == p.engine.commands && r.engine.nextId == p.engine.nextId
    ensures r.engine.playing == (if p.engine.playing == Some(u) then None else p.engine.playing)
  {
    Player(None, EngineFinished(p.engine, u))
  }

  function EngineFinished(e: Engine, u: nat): Engine {
    if e.playing == Some(u) then e.(playing := None) else e
  }

  /** The unmount effect: whatever plays is cancelled. */
  function Unmount(p: Player): (e: Engine)
    ensures e.playing.None? && e.commands == p.engine.commands + [Cancel]
  {
    CancelAll(p.engine)
  }

  /** What the button shows agrees with the engine: a message is marked iff
      an utterance plays, and the utterance that plays is the latest one. */
  ghost predicate Synced(p: Player) {
    && (p.speakingIdx.Some? <==> p.engine.playing.Some?)
    && (p.engine.playing.Some? ==> p.engine.playing.value + 1 == p.engine.nextId)
  }

  /** As written, half of the agreement survives every event: a marked
      message always has audio behind it. */
  lemma MarkedImpliesPlaying(p: Player, idx: nat, text: string, emoji: set<char>, u: nat)
    requires '.' !in emoji && ' ' !in emoji
    requires p.speakingIdx.Some? ==> p.engine.playing.Some?
    ensures var r := Toggle(p, idx, text, emoji); r.speakingIdx.Some? ==> r.engine.playing.Some?
    ensures var r := Finished(p, u); r.speakingIdx.Some? ==> r.engine.playing.Some?
  {
  }

  /** As written, the other half fails: reading message 0, switching to
      message 1 (which cancels utterance 0), then the late end event of
      utterance 0 clears the mark while utterance 1 is still playing. */
  lemma StaleEndClearsNewerMark()
    ensures var p := Toggle(Toggle(Init(), 0, "a", {}), 1, "b", {});
            && Synced(p) && p.speakingIdx == Some(1)
            && var q := Finished(p, 0);
               q.speakingIdx.None? && q.engine.playing == Some(1) && !Synced(q)
  {
  }

  /** The callback as evidently intended: only the end of the utterance the
      panel started last clears the mark. */
  function FinishedLatest(p: Player, u: nat): (r: Player)
    ensures r.engine == EngineFinished(p.engine, u)
    ensures u + 1 != p.engine.nextId ==> r.speakingIdx == p.speakingIdx
    ensures u + 1 == p.engine.nextId ==> r.speakingIdx.None?
  {
    Player(if u + 1 == p.engine.nextId then None else p.speakingIdx, EngineFinished(p.engine, u))
  }

  /** With that callback the button and the engine always agree. */
  lemma FinishedLatestKeepsSync(p: Player, idx: nat, text: string, emoji: set<char>, u: nat)
    requires '.' !in emoji && ' ' !in emoji
    requires Synced(p)
    ensures Synced(Toggle(p, idx, text, emoji))
    ensures Synced(FinishedLatest(p, u))
  {
  }
}

=== FILE: qdrant.dfy ===
/** The vector-store wrapper (`news/services/qdrant_service.py`): the
    collection is (re)created when missing or of the wrong dimension, an
    embedding is requested up to three times while the error looks like a
    rate limit, and upserts and searches stop early when there is no
    embedding. The collection is a value; the embedding service is an
    oracle indexed by attempt, and the similarity query is an oracle too. */
module Qdrant {
  import opened Values
  import opened Text

  const CollectionName: string := "job_market_news"
  const VectorSize: nat := 3072
  const EmbedInputLimit: nat := 8000
  const EmbedAttempts: nat := 3
  const SnippetPreview: nat := 1000

  datatype Payload = Payload(title: string, url: string, source: string,
                             publishedAt: string, snippet: string)

  datatype Point = Point(vector: seq<real>, payload: Payload)

  /** A collection: its vector dimension and its points by id. */
  datatype Collection = Collection(dim: int, points: map<int, Point>)

  /** The calls made on the client, in order. */
  datatype Action = Delete | Create

  datatype Ensured = Ensured(collection: Collection, actions: seq<Action>)

  /** `ensure_collection`: a missing collection is created; one of another
      dimension is deleted and created again, losing its points; a
      collection of the right size is left alone. */
  function EnsureCollection(existing: Option<Collection>): (r: Ensured)
    ensures r.collection.dim == VectorSize
    ensures existing.Some? && existing.value.dim == VectorSize ==>
              r.collection == existing.value && r.actions == []
    ensures existing.None? ==> r.collection.points == map[] && r.actions == [Create]
    ensures existing.Some? && existing.value.dim != VectorSize ==>
              r.collection.points == map[] && r.actions == [Delete, Create]
  {
    match existing
    case None => Ensured(Collection(VectorSize, map[]), [Create])
    case Some(c) =>
      if c.dim != VectorSize then Ensured(Collection(VectorSize, map[]), [Delete, Create])
      else Ensured(c, [])
  }

  /** Ensuring twice calls nothing the second time and changes nothing. */
  lemma EnsureCollectionIdempotent(existing: Option<Collection>)
    ensures var once := EnsureCollection(existing);
            var twice := EnsureCollection(Some(once.collection));
            twice.collection == once.collection && twice.actions == []
  {
  }

  /** One `embed_content` call: the vector, or an exception's message. */
  datatype EmbedCall = Embedded(values: seq<real>) | EmbedFailed(message: string)

  /** A rate-limit error: the lower-cased message mentions a quota or a 429. */
  predicate RateLimited(message: string) {
    IsInfix("quota", Lower(message)) || IsInfix("429", Lower(message))
  }

  /** The attempts before `n` all failed with a rate limit. */
  predicate AllRateLimited(calls: (string, nat) -> EmbedCall, text: string, n: nat) {
    forall k | 0 <= k < n :: calls(text, k).EmbedFailed? && RateLimited(calls(text, k).message)
  }

  /** The text actually sent: its first 8000 characters. */
  function EmbedInput(text: string): string {
    Take(text, EmbedInputLimit)
  }

  /** `v` is the embedding the retry loop ends with: some attempt within
      the limit returned it after only rate-limited failures. */
  ghost predicate EmbeddingOf(text: string, calls: (string, nat) -> EmbedCall, v: seq<real>) {
    text != "" &&
    exists k | 0 <= k < EmbedAttempts ::
      AllRateLimited(calls, EmbedInput(text), k) && calls(EmbedInput(text), k) == Embedded(v)
  }

  /** There is at most one such embedding: the first success. */
  lemma EmbeddingUnique(text: string, calls: (string, nat) -> EmbedCall, v: seq<real>, w: seq<real>)
    requires EmbeddingOf(text, calls, v) && EmbeddingOf(text, calls, w)
    ensures v == w
  {
    var t := EmbedInput(text);
    var i :| 0 <= i < EmbedAttempts && AllRateLimited(calls, t, i) && calls(t, i) == Embedded(v);
    var j :| 0 <= j < EmbedAttempts && AllRateLimited(calls, t, j) && calls(t, j) == Embedded(w);
  }

  /** `get_embedding(text)`. `calls(t, k)` is what attempt `k` does with
      the text `t`; `tried` counts the attempts and `waits` the seconds
      slept after each rate-limited failure. */
  method GetEmbedding(text: string, calls: (string, nat) -> EmbedCall)
    returns (r: Option<seq<real>>, tried: nat, waits: seq<nat>)
    ensures text == "" ==> r.None? && tried == 0 && waits == []
    ensures tried <= EmbedAttempts
    ensures text != "" ==> 0 < tried && AllRateLimited(calls, EmbedInput(text), tried - 1)
    ensures r.Some? <==> text != "" && calls(EmbedInput(text), tried - 1).Embedded?
    ensures r.Some? ==> r.value == calls(EmbedInput(text), tried - 1).values
                        && EmbeddingOf(text, calls, r.value)
    ensures text != "" && r.None? ==>
              var last := calls(EmbedInput(text), tried - 1);
              (last.EmbedFailed? && !RateLimited(last.message))
              || (tried == EmbedAttempts && AllRateLimited(calls, EmbedInput(text), EmbedAttempts))
    ensures |waits| <= tried && AllRateLimited(calls, EmbedInput(text), |waits|)
    ensures AllRateLimited(calls, EmbedInput(text), tried) ==> |waits| == tried
    ensures forall k | 0 <= k < |waits| :: waits[k] == 2 * (k + 1)
  {
    r, tried, waits := None, 0, [];
    if text == "" {
      return;
    }
    var input := EmbedInput(text);
    while tried < EmbedAttempts
      invariant tried <= EmbedAttempts
      invariant AllRateLimited(calls, input, tried)
      invariant |waits| == tried
      invariant forall k | 0 <= k < |waits| :: waits[k] == 2 * (k + 1)
    {
      var call := calls(input, tried);
      tried := tried + 1;
      match call
      case Embedded(values) =>
        return Some(values), tried, waits;
      case EmbedFailed(message) =>
        if !RateLimited(message) {
          return None, tried, waits;
        }
        waits := waits + [2 * tried];
    }
  }

  /** The article as the indexer passes it; `publishedAt` is the printed
      date, absent when the article has none. */
  datatype Indexed = Indexed(id: int, title: string, url: string, source: string,
                             publishedAt: Option<string>, snippet: string)

  /** The stored payload: the date printed or empty, the snippet cut to its
      first thousand characters. */
  function PayloadOf(a: Indexed): (p: Payload)
    ensures |p.snippet| == Min(|a.snippet|, SnippetPreview) && p.snippet == a.snippet[..|p.snippet|]
    ensures a.publishedAt.None? ==> p.publishedAt == ""
    ensures a.publishedAt.Some? ==> p.publishedAt == a.publishedAt.value
    ensures p.title == a.title && p.url == a.url && p.source == a.source
  {
    Payload(a.title, a.url, a.source, Or(a.publishedAt, ""), Take(a.snippet, SnippetPreview))
  }

  /** `upsert_article`: without an embedding nothing is written and the
      answer is false; otherwise the point is written under the article's
      id, replacing any earlier one, and no other point changes. */
  method UpsertArticle(c: Collection, a: Indexed, calls: (string, nat) -> EmbedCall)
    returns (c': Collection, ok: bool)
    ensures c'.dim == c.dim
    ensures !ok ==> c' == c
    ensures a.snippet == "" ==> !ok
    ensures ok ==> a.id in c'.points && c'.points[a.id].payload == PayloadOf(a)
                   && EmbeddingOf(a.snippet, calls, c'.points[a.id].vector)
    ensures ok ==> forall id | id in c.points && id != a.id :: id in c'.points && c'.points[id] == c.points[id]
    ensures ok ==> c'.points.Keys == c.points.Keys + {a.id}
  {
    var embedding, tried, waits := GetEmbedding(a.snippet, calls);
    if embedding.None? {
      return c, false;
    }
    c' := c.(points := c.points[a.id := Point(embedding.value, PayloadOf(a))]);
    ok := true;
  }

  /** One search hit: a point id and its similarity. */
  datatype Hit = Hit(id: int, score: real)

  /** `search_similar`: with no embedding the answer is empty and the
      store is not queried; otherwise it is what the query with the
      embedding returns. */
  method SearchSimilar(query: string, limit: nat, calls: (string, nat) -> EmbedCall,
                       search: (seq<real>, nat) -> seq<Hit>)
    returns (hits: seq<Hit>, used: Option<seq<real>>)
    ensures query == "" ==> used.None?
    ensures used.None? ==> hits == []
    ensures used.Some? ==> EmbeddingOf(query, calls, used.value) && hits == search(used.value, limit)
  {
    var tried, waits;
    used, tried, waits := GetEmbedding(query, calls);
    if used.None? {
      return [], None;
    }
    hits := search(used.value, limit);
  }
}

=== FILE: ranking.dfy ===
/** `rank_articles` (`news/news_fetcher/ranking.py`): keep the articles
    whose lower-cased title and snippet mention a keyword (or all of them
    when none does), sort them by snippet word count, highest first, and
    keep the first `topN`. Python's sort is stable, so articles with the
    same score stay in input order; the model sorts article positions by
    that strict order and then looks the articles up. */
module Ranking {
  import opened Values
  import opened Text
  import NewsUtils

  type Article = NewsUtils.Article

  /** `word_count(a.get("snippet", ""))`. */
  function Score(a: Article): nat {
    WordCount(a.snippet)
  }

  /** `any(k in combined for k in keywords)`; only the article text is
      lower-cased, not the keywords. */
  predicate Matches(a: Article, keywords: seq<string>) {
    exists k | 0 <= k < |keywords| :: IsInfix(keywords[k], Lower(a.title + " " + a.snippet))
  }

  predicate Increasing(xs: seq<nat>) {
    forall a, b | 0 <= a < b < |xs| :: xs[a] < xs[b]
  }

  /** The positions below `n` of the articles that mention a keyword, in
      input order. */
  function MatchingIndices(articles: seq<Article>, keywords: seq<string>, n: nat): (r: seq<nat>)
    requires n <= |articles|
    ensures |r| <= n && Increasing(r)
    ensures forall k | 0 <= k < |r| :: r[k] < n && Matches(articles[r[k]], keywords)
    ensures forall i | 0 <= i < n && Matches(articles[i], keywords) :: i in r
    decreases n
  {
    if n == 0 then []
    else
      var r := MatchingIndices(articles, keywords, n - 1);
      if Matches(articles[n - 1], keywords) then r + [n - 1] else r
  }

  function AllIndices(n: nat): (r: seq<nat>)
    ensures |r| == n && Increasing(r)
    ensures forall k | 0 <= k < n :: r[k] == k
  {
    seq(n, i requires 0 <= i < n => i)
  }

  /** The positions the sort sees: the matching ones, or every position when
      nothing matches. */
  function Eligible(articles: seq<Article>, keywords: seq<string>): (r: seq<nat>)
    ensures |r| <= |articles| && Increasing(r)
    ensures forall k | 0 <= k < |r| :: r[k] < |articles|
    ensures forall i | 0 <= i < |articles| :: i in r <==>
              Matches(articles[i], keywords) || forall j | 0 <= j < |articles| :: !Matches(articles[j], keywords)
    ensures (forall j | 0 <= j < |articles| :: !Matches(articles[j], keywords)) ==> |r| == |articles|
  {
    var m := MatchingIndices(articles, keywords, |articles|);
    if m != [] then
      assert Matches(articles[m[0]], keywords);
      m
    else
      var all := AllIndices(|articles|);
      forall i | 0 <= i < |articles|
        ensures i in all
      {
        assert all[i] == i;
      }
      all
  }

  /** The score of every article, by position. */
  function Scores(articles: seq<Article>): (keys: seq<nat>)
    ensures |keys| == |articles|
    ensures forall i | 0 <= i < |articles| :: keys[i] == Score(articles[i])
  {
    seq(|articles|, i requires 0 <= i < |articles| => Score(articles[i]))
  }

  /** The score at position `i`. */
  function Key(keys: seq<nat>, i: nat): nat {
    if i < |keys| then keys[i] else 0
  }

  /** The order of the stable descending sort: a higher score first, and
      on equal scores the earlier position first. */
  predicate Before(keys: seq<nat>, i: nat, j: nat) {
    Key(keys, i) > Key(keys, j) || (Key(keys, i) == Key(keys, j) && i < j)
  }

  /** Every position comes before each later one. */
  predicate SortedBy(keys: seq<nat>, xs: seq<nat>) {
    forall a, b | 0 <= a < b < |xs| :: Before(keys, xs[a], xs[b])
  }

  /** Each position comes before the next one. */
  predicate Chain(keys: seq<nat>, xs: seq<nat>) {
    forall k | 0 < k < |xs| :: Before(keys, xs[k - 1], xs[k])
  }

  lemma ChainTail(keys: seq<nat>, xs: seq<nat>)
    requires Chain(keys, xs) && xs != []
    ensures Chain(keys, xs[1..])
  {
    forall k | 0 < k < |xs[1..]|
      ensures Before(keys, xs[1..][k - 1], xs[1..][k])
    {
      assert xs[1..][k - 1] == xs[k];
    }
  }

  /** `Before` is transitive, so a chain is sorted. */
  lemma {:induction false} ChainSorted(keys: seq<nat>, xs: seq<nat>)
    requires Chain(keys, xs)
    ensures SortedBy(keys, xs)
    decreases |xs|
  {
    if |xs| > 1 {
      var t := xs[1..];
      ChainTail(keys, xs);
      ChainSorted(keys, t);
      forall a, b | 0 <= a < b < |xs|
        ensures Before(keys, xs[a], xs[b])
      {
        if a > 0 {
          assert xs[a] == t[a - 1] && xs[b] == t[b - 1];
        } else if b > 1 {
          assert Before(keys, t[0], t[b - 1]);
        }
      }
    }
  }

  /** One insertion step of the sort: `x` goes before the first position
      it precedes. */
  function Insert(keys: seq<nat>, x: nat, xs: seq<nat>): (r: seq<nat>)
    ensures |r| == |xs| + 1
    ensures multiset(r) == multiset(xs) + multiset{x}
    ensures r[0] == x || (xs != [] && r[0] == xs[0])
    decreases |xs|
  {
    if xs == [] || Before(keys, x, xs[0]) then [x] + xs
    else
      assert xs == [xs[0]] + xs[1..];
      [xs[0]] + Insert(keys, x, xs[1..])
  }

  /** Inserting a new position into a chain keeps it a chain. */
  lemma {:induction false} InsertChain(keys: seq<nat>, x: nat, xs: seq<nat>)
    requires Chain(keys, xs) && x !in xs
    ensures Chain(keys, Insert(keys, x, xs))
    decreases |xs|
  {
    if xs != [] && !Before(keys, x, xs[0]) {
      ChainTail(keys, xs);
      InsertChain(keys, x, xs[1..]);
      var rest := Insert(keys, x, xs[1..]);
      assert Before(keys, xs[0], rest[0]);
      assert Insert(keys, x, xs) == [xs[0]] + rest;
    }
  }

  /** `ranked.sort(key=score, reverse=True)` on positions. */
  function SortBy(keys: seq<nat>, xs: seq<nat>): (r: seq<nat>)
    ensures |r| == |xs|
    ensures multiset(r) == multiset(xs)
    decreases |xs|
  {
    if xs == [] then []
    else
      assert xs == [xs[0]] + xs[1..];
      Insert(keys, xs[0], SortBy(keys, xs[1..]))
  }

  /** Sorting distinct positions (here given in increasing order) yields a
      chain. */
  lemma {:induction false} SortChain(keys: seq<nat>, xs: seq<nat>)
    requires Increasing(xs)
    ensures Chain(keys, SortBy(keys, xs))
    decreases |xs|
  {
    if xs != [] {
      var t := xs[1..];
      assert Increasing(t) by {
        forall a, b | 0 <= a < b < |t|
          ensures t[a] < t[b]
        {
          assert t[a] == xs[a + 1] && t[b] == xs[b + 1];
        }
      }
      SortChain(keys, t);
      var rest := SortBy(keys, t);
      assert xs[0] !in t;
      assert xs[0] !in rest by {
        assert xs[0] !in multiset(t);
      }
      InsertChain(keys, xs[0], rest);
    }
  }

  /** The eligible positions in the order of the sort. */
  function Ranked(articles: seq<Article>, keywords: seq<string>): seq<nat> {
    SortBy(Scores(articles), Eligible(articles, keywords))
  }

  /** The sort puts every eligible position, and nothing else, in order. */
  lemma RankedFacts(articles: seq<Article>, keywords: seq<string>)
    ensures var sorted := Ranked(articles, keywords);
            && |sorted| <= |articles|
            && SortedBy(Scores(articles), sorted)
            && (forall k | 0 <= k < |sorted| :: sorted[k] < |articles|)
            && (forall i :: i in sorted <==> i in Eligible(articles, keywords))
  {
    var e := Eligible(articles, keywords);
    var sorted := Ranked(articles, keywords);
    SortChain(Scores(articles), e);
    ChainSorted(Scores(articles), sorted);
    forall i
      ensures i in sorted <==> i in e
    {
      assert i in sorted <==> i in multiset(sorted);
      assert i in e <==> i in multiset(e);
    }
    forall k | 0 <= k < |sorted|
      ensures sorted[k] < |articles|
    {
      assert sorted[k] in e;
    }
  }

  /** The positions `rank_articles` returns, best first. */
  function RankIndices(articles: seq<Article>, keywords: seq<string>, topN: nat): (idx: seq<nat>)
    ensures forall k | 0 <= k < |idx| :: idx[k] < |articles|
  {
    var sorted := Ranked(articles, keywords);
    RankedFacts(articles, keywords);
    sorted[..Min(topN, |sorted|)]
  }

  /** At most `TOP_N` positions, and never more than there are articles. */
  lemma RankBounded(articles: seq<Article>, keywords: seq<string>, topN: nat)
    ensures |RankIndices(articles, keywords, topN)| <= Min(topN, |articles|)
  {
    RankedFacts(articles, keywords);
  }

  /** No position is returned twice: the output repeats an article only if
      the input does. */
  lemma RankDistinct(articles: seq<Article>, keywords: seq<string>, topN: nat)
    ensures var idx := RankIndices(articles, keywords, topN);
            forall a, b | 0 <= a < b < |idx| :: idx[a] != idx[b]
  {
    RankedFacts(articles, keywords);
  }

  /** When some article mentions a keyword, only positions of such articles
      are returned. */
  lemma RankFilters(articles: seq<Article>, keywords: seq<string>, topN: nat)
    ensures var idx := RankIndices(articles, keywords, topN);
            (exists i | 0 <= i < |articles| :: Matches(articles[i], keywords)) ==>
              forall k | 0 <= k < |idx| :: Matches(articles[idx[k]], keywords)
  {
    RankedFacts(articles, keywords);
    var idx := RankIndices(articles, keywords, topN);
    var sorted := Ranked(articles, keywords);
    if exists i | 0 <= i < |articles| :: Matches(articles[i], keywords) {
      forall k | 0 <= k < |idx|
        ensures Matches(articles[idx[k]], keywords)
      {
        assert sorted[k] in sorted;
      }
    }
  }

  /** When no article mentions a keyword, every article is eligible, and
      the first `min(TOP_N, n)` by score are returned. */
  lemma RankFallback(articles: seq<Article>, keywords: seq<string>, topN: nat)
    ensures (forall i | 0 <= i < |articles| :: !Matches(articles[i], keywords)) ==>
              && |RankIndices(articles, keywords, topN)| == Min(topN, |articles|)
              && forall i | 0 <= i < |articles| :: i in Ranked(articles, keywords)
  {
    RankedFacts(articles, keywords);
    var e := Eligible(articles, keywords);
    if forall i | 0 <= i < |articles| :: !Matches(articles[i], keywords) {
      assert forall i | 0 <= i < |articles| :: i in e;
      assert |e| == |articles|;
    }
  }

  /** What the articles at the ranked positions satisfy. */
  lemma RankedArticlesFacts(articles: seq<Article>, keywords: seq<string>, topN: nat, r: seq<Article>)
    requires var idx := RankIndices(articles, keywords, topN);
             |r| == |idx| && forall k | 0 <= k < |r| :: r[k] == articles[idx[k]]
    ensures |r| <= Min(topN, |articles|)
    ensures forall k | 0 <= k < |r| :: r[k] in articles
    ensures (exists i | 0 <= i < |articles| :: Matches(articles[i], keywords)) ==>
              forall k | 0 <= k < |r| :: Matches(r[k], keywords)
    ensures (forall i | 0 <= i < |articles| :: !Matches(articles[i], keywords)) ==>
              |r| == Min(topN, |articles|)
    ensures forall a, b | 0 <= a < b < |r| :: Score(r[a]) >= Score(r[b])
  {
    var idx := RankIndices(articles, keywords, topN);
    RankBounded(articles, keywords, topN);
    RankFilters(articles, keywords, topN);
    RankFallback(articles, keywords, topN);
    RankOrdered(articles, keywords, topN);
    forall k | 0 <= k < |r|
      ensures r[k] in articles
    {
      assert r[k] == articles[idx[k]];
    }
  }

  /** `rank_articles(articles)` with `keywords` for `ECON_KEYWORDS` and
      `topN` for `TOP_N`: input articles only, at most `TOP_N` of them,
      only matching ones when any match and otherwise `min(TOP_N, n)` of
      them, by score, highest first. */
  function RankArticles(articles: seq<Article>, keywords: seq<string>, topN: nat): (r: seq<Article>)
    ensures var idx := RankIndices(articles, keywords, topN);
            |r| == |idx| && forall k | 0 <= k < |r| :: r[k] == articles[idx[k]]
    ensures |r| <= Min(topN, |articles|)
    ensures forall k | 0 <= k < |r| :: r[k] in articles
    ensures (exists i | 0 <= i < |articles| :: Matches(articles[i], keywords)) ==>
              forall k | 0 <= k < |r| :: Matches(r[k], keywords)
    ensures (forall i | 0 <= i < |articles| :: !Matches(articles[i], keywords)) ==>
              |r| == Min(topN, |articles|)
    ensures forall a, b | 0 <= a < b < |r| :: Score(r[a]) >= Score(r[b])
  {
    var idx := RankIndices(articles, keywords, topN);
    var r := seq(|idx|, k requires 0 <= k < |idx| => articles[idx[k]]);
    RankedArticlesFacts(articles, keywords, topN, r);
    r
  }

  /** A prefix of a sorted sequence is sorted. */
  lemma PrefixSorted(keys: seq<nat>, sorted: seq<nat>, m: nat)
    requires SortedBy(keys, sorted) && m <= |sorted|
    ensures SortedBy(keys, sorted[..m])
  {
    var idx := sorted[..m];
    forall a, b | 0 <= a < b < |idx|
      ensures Before(keys, idx[a], idx[b])
    {
      assert idx[a] == sorted[a] && idx[b] == sorted[b];
    }
  }

  /** A position of a sorted sequence that falls outside its first `m`
      positions has a key no higher than any of them. */
  lemma CutNoHigher(keys: seq<nat>, sorted: seq<nat>, m: nat, i: nat, k: nat)
    requires SortedBy(keys, sorted) && m <= |sorted|
    requires i in sorted && i !in sorted[..m] && k < m
    ensures Key(keys, i) <= Key(keys, sorted[k])
  {
    var p :| 0 <= p < |sorted| && sorted[p] == i;
    assert p >= m;
    assert Before(keys, sorted[k], sorted[p]);
  }

  /** The output is ordered by score, highest first, and articles with the
      same score keep their input order. */
  lemma RankOrdered(articles: seq<Article>, keywords: seq<string>, topN: nat)
    ensures var idx := RankIndices(articles, keywords, topN);
            forall a, b | 0 <= a < b < |idx| ::
              && Score(articles[idx[a]]) >= Score(articles[idx[b]])
              && (Score(articles[idx[a]]) == Score(articles[idx[b]]) ==> idx[a] < idx[b])
  {
    var keys := Scores(articles);
    var sorted := Ranked(articles, keywords);
    RankedFacts(articles, keywords);
    var idx := RankIndices(articles, keywords, topN);
    PrefixSorted(keys, sorted, Min(topN, |sorted|));
    assert SortedBy(keys, idx);
    forall a, b | 0 <= a < b < |idx|
      ensures Score(articles[idx[a]]) >= Score(articles[idx[b]])
      ensures Score(articles[idx[a]]) == Score(articles[idx[b]]) ==> idx[a] < idx[b]
    {
      assert Before(keys, idx[a], idx[b]);
      assert keys[idx[a]] == Score(articles[idx[a]]) && keys[idx[b]] == Score(articles[idx[b]]);
    }
  }

  /** An eligible article that was cut scores no higher than any returned
      one. */
  lemma LeftOutScoreNoHigher(articles: seq<Article>, keywords: seq<string>, topN: nat, i: nat, k: nat)
    requires i in Eligible(articles, keywords) && i !in RankIndices(articles, keywords, topN)
    requires k < |RankIndices(articles, keywords, topN)|
    ensures i < |articles|
    ensures Score(articles[i]) <= Score(articles[RankIndices(articles, keywords, topN)[k]])
  {
    var keys := Scores(articles);
    var sorted := Ranked(articles, keywords);
    RankedFacts(articles, keywords);
    var m := Min(topN, |sorted|);
    assert RankIndices(articles, keywords, topN) == sorted[..m];
    CutNoHigher(keys, sorted, m, i, k);
    assert keys[i] == Score(articles[i]);
  }
}

=== FILE: sanitize.dfy ===
/** The text clean-up `handleSpeak` applies before reading a message
    aloud: five global regular-expression replacements, applied in order.
    Each pass is written as the left-to-right scan a global replace makes. */
module Sanitize {
  import opened Text

  /** `[#*`_~\[\]]`: markdown punctuation. */
  const MarkdownChars: set<char> := {'#', '*', '`', '_', '~', '[', ']'}

  /** Removes every character of `drop` (passes 1 and 2); a text with none
      of them comes back unchanged. */
  function RemoveChars(s: string, drop: set<char>): (r: string)
    ensures forall c :: c in r <==> c in s && c !in drop
    ensures |r| <= |s|
    ensures (forall i | 0 <= i < |s| :: s[i] !in drop) ==> r == s
  {
    if s == [] then []
    else
      var rest := RemoveChars(s[1..], drop);
      assert forall c :: c in s <==> c == s[0] || c in s[1..];
      if s[0] in drop then rest else [s[0]] + rest
  }

  /** The length of `(https://` or `(http://` at the start of `s`, else 0. */
  function LinkOpener(s: string): (n: nat)
    ensures n <= |s|
  {
    if |s| >= 9 && s[..9] == "(https://" then 9
    else if |s| >= 8 && s[..8] == "(http://" then 8
    else 0
  }

  /** Does `\(https?:\/\/[^\)]+\)` match at the start of `s`? If so, the
      length of the match: the opener, at least one non-`)` character, and
      the first `)` after them. */
  function LinkMatch(s: string): (n: nat)
    ensures n <= |s|
    ensures n > 0 ==> s[0] == '(' && s[n - 1] == ')'
  {
    var p := LinkOpener(s);
    if p == 0 || ')' !in s[p..] then 0
    else
      var j := IndexOf(s[p..], ')');
      if j == 0 then 0 else p + j + 1
  }

  /** Pass 3: removes parenthesised `http(s)` links, leaving the rest; a
      text without `(` has no link and is kept whole. */
  function RemoveLinks(s: string): (r: string)
    ensures forall c :: c in r ==> c in s
    ensures |r| <= |s|
    ensures '(' !in s ==> r == s
    decreases |s|
  {
    if s == [] then []
    else
      var n := LinkMatch(s);
      if n > 0 then
        var rest := RemoveLinks(s[n..]);
        assert forall c :: c in s[n..] ==> c in s;
        rest
      else
        var rest := RemoveLinks(s[1..]);
        assert forall c :: c in s <==> c == s[0] || c in s[1..];
        [s[0]] + rest
  }

  /** No `<` has a `>` anywhere after it, so `<[^>]*>` cannot match. */
  predicate NoTag(s: string) {
    s == [] || (NoTag(s[1..]) && (s[0] == '<' ==> '>' !in s[1..]))
  }

  /** Pass 4: `<[^>]*>` replaced by nothing. A `<` without a later `>` is
      kept, and a text without `<` is kept whole. */
  function RemoveTags(s: string): (r: string)
    ensures forall c :: c in r ==> c in s
    ensures NoTag(r)
    ensures |r| <= |s|
    ensures '<' !in s ==> r == s
    decreases |s|
  {
    if s == [] then []
    else if s[0] == '<' && '>' in s[1..] then
      var j := IndexOf(s[1..], '>');
      var rest := RemoveTags(s[j + 2..]);
      assert forall c :: c in s[j + 2..] ==> c in s;
      rest
    else
      var rest := RemoveTags(s[1..]);
      assert forall c :: c in s <==> c == s[0] || c in s[1..];
      var r := [s[0]] + rest;
      assert r[1..] == rest;
      r
  }

  /** The number of newlines at the start of `s`. */
  function LeadingNewlines(s: string): (n: nat)
    ensures 0 < |s| && s[0] == '\n' ==> 0 < n
    ensures n <= |s|
  {
    if s != [] && s[0] == '\n' then 1 + LeadingNewlines(s[1..]) else 0
  }

  /** Pass 5: every run of newlines becomes `. `. Nothing else changes, so
      a text without tags keeps having none, and a text without newlines is
      kept whole. */
  function NewlinesToStops(s: string): (r: string)
    ensures '\n' !in r
    ensures forall c :: c in r ==> c in s || c == '.' || c == ' '
    ensures NoTag(s) ==> NoTag(r)
    ensures '\n' !in s ==> r == s
    decreases |s|
  {
    if s == [] then []
    else if s[0] == '\n' then
      var n := LeadingNewlines(s);
      var rest := NewlinesToStops(s[n..]);
      assert forall c :: c in s[n..] ==> c in s;
      NoTagSuffix(s, n);
      var r := ". " + rest;
      assert r[1..] == " " + rest && r[1..][1..] == rest;
      r
    else
      var rest := NewlinesToStops(s[1..]);
      assert forall c :: c in s <==> c == s[0] || c in s[1..];
      var r := [s[0]] + rest;
      assert r[1..] == rest;
      r
  }

  lemma {:induction false} NoTagSuffix(s: string, n: nat)
    requires n <= |s|
    ensures NoTag(s) ==> NoTag(s[n..])
    decreases n
  {
    if n > 0 {
      assert s[n..] == s[1..][n - 1..];
      NoTagSuffix(s[1..], n - 1);
    }
  }

  /** No character of `s` is touched by any pass. */
  predicate Plain(s: string, emoji: set<char>) {
    forall i | 0 <= i < |s| :: s[i] !in emoji && s[i] !in MarkdownChars && s[i] !in "(<\n"
  }

  /** The whole chain, with the Unicode emoji classes
      (`\p{Emoji_Presentation}|\p{Extended_Pictographic}`) given as the set
      of characters they contain. Plain prose, with none of the characters
      any pass acts on, is read exactly as written. */
  function ForSpeech(text: string, emoji: set<char>): (r: string)
    requires '.' !in emoji && ' ' !in emoji
    ensures forall c | c in r :: c !in MarkdownChars && c !in emoji && c != '\n'
    ensures NoTag(r)
    ensures Plain(text, emoji) ==> r == text
  {
    var s1 := RemoveChars(text, emoji);
    var s2 := RemoveChars(s1, MarkdownChars);
    var s3 := RemoveLinks(s2);
    var s4 := RemoveTags(s3);
    NewlinesToStops(s4)
  }

  /** Splitting off the first element of the left operand of `+`. */
  lemma ConsAppend(a: string, x: string)
    requires a != []
    ensures a + x == [a[0]] + (a[1..] + x)
  {
    assert a == [a[0]] + a[1..];
  }

  /** Passes 1 and 2 act on each character alone: removing characters from
      a concatenation is removing them from each part. */
  lemma {:induction false} RemoveCharsAppend(a: string, b: string, drop: set<char>)
    ensures RemoveChars(a + b, drop) == RemoveChars(a, drop) + RemoveChars(b, drop)
    decreases |a|
  {
    if a == [] {
      assert a + b == b;
    } else {
      assert (a + b)[0] == a[0] && (a + b)[1..] == a[1..] + b;
      RemoveCharsAppend(a[1..], b, drop);
      var x, y := RemoveChars(a[1..], drop), RemoveChars(b, drop);
      if a[0] !in drop {
        assert RemoveChars(a + b, drop) == [a[0]] + (x + y);
        ConsAppend([a[0]] + x, y);
        assert ([a[0]] + x)[1..] == x;
      }
    }
  }

  /** A text made only of dropped characters vanishes. */
  lemma RemoveCharsAllDropped(s: string, drop: set<char>)
    requires forall i | 0 <= i < |s| :: s[i] in drop
    ensures RemoveChars(s, drop) == []
  {
  }

  lemma RemoveLinksCons(s: string, t: string)
    requires s != [] && s[0] != '(' && s[1..] == t
    ensures RemoveLinks(s) == [s[0]] + RemoveLinks(t)
  {
    assert LinkMatch(s) == 0;
  }

  /** Pass 3 copies text before the first `(` unchanged. */
  lemma {:induction false} RemoveLinksAppend(a: string, b: string)
    requires '(' !in a
    ensures RemoveLinks(a + b) == a + RemoveLinks(b)
    decreases |a|
  {
    if a == [] {
      assert a + b == b;
    } else {
      assert (a + b)[0] == a[0] && (a + b)[1..] == a[1..] + b;
      RemoveLinksCons(a + b, a[1..] + b);
      RemoveLinksAppend(a[1..], b);
      var rb := RemoveLinks(b);
      assert RemoveLinks(a + b) == [a[0]] + (a[1..] + rb);
      ConsAppend(a, rb);
    }
  }

  /** Pass 3 removes a whole `(http://…)` or `(https://…)` link, up to the
      first `)`, and goes on after it. */
  lemma LinkRemoved(secure: bool, url: string, b: string)
    requires url != [] && ')' !in url
    ensures var opener := if secure then "(https://" else "(http://";
            RemoveLinks(opener + url + ")" + b) == RemoveLinks(b)
  {
    var opener := if secure then "(https://" else "(http://";
    var s := opener + url + ")" + b;
    assert s[..|opener|] == opener;
    if !secure {
      assert s[5] == ':';
    }
    assert LinkOpener(s) == |opener|;
    var t := s[|opener|..];
    assert t == url + ")" + b;
    assert t[|url|] == ')';
    assert t[..|url|] == url;
    assert IndexOf(t, ')') == |url|;
    assert s[|opener| + |url| + 1..] == b;
  }

  lemma RemoveTagsCons(s: string, t: string)
    requires s != [] && s[0] != '<' && s[1..] == t
    ensures RemoveTags(s) == [s[0]] + RemoveTags(t)
  {
  }

  /** Pass 4 copies text before the first `<` unchanged. */
  lemma {:induction false} RemoveTagsAppend(a: string, b: string)
    requires '<' !in a
    ensures RemoveTags(a + b) == a + RemoveTags(b)
    decreases |a|
  {
    if a == [] {
      assert a + b == b;
    } else {
      assert (a + b)[0] == a[0] && (a + b)[1..] == a[1..] + b;
      RemoveTagsCons(a + b, a[1..] + b);
      RemoveTagsAppend(a[1..], b);
      var rb := RemoveTags(b);
      assert RemoveTags(a + b) == [a[0]] + (a[1..] + rb);
      ConsAppend(a, rb);
    }
  }

  /** Pass 4 removes a whole `<…>` tag and goes on after it. */
  lemma TagRemoved(inner: string, b: string)
    requires '>' !in inner
    ensures RemoveTags("<" + inner + ">" + b) == RemoveTags(b)
  {
    var s := "<" + inner + ">" + b;
    var t := s[1..];
    assert t == inner + ">" + b;
    assert t[|inner|] == '>';
    assert t[..|inner|] == inner;
    assert IndexOf(t, '>') == |inner|;
    assert s[|inner| + 2..] == b;
  }

  lemma NewlinesToStopsCons(s: string, t: string)
    requires s != [] && s[0] != '\n' && s[1..] == t
    ensures NewlinesToStops(s) == [s[0]] + NewlinesToStops(t)
  {
  }

  /** Pass 5 copies text before the first newline unchanged. */
  lemma {:induction false} NewlinesToStopsAppend(a: string, b: string)
    requires '\n' !in a
    ensures NewlinesToStops(a + b) == a + NewlinesToStops(b)
    decreases |a|
  {
    if a == [] {
      assert a + b == b;
    } else {
      assert (a + b)[0] == a[0] && (a + b)[1..] == a[1..] + b;
      NewlinesToStopsCons(a + b, a[1..] + b);
      NewlinesToStopsAppend(a[1..], b);
      var rb := NewlinesToStops(b);
      assert NewlinesToStops(a + b) == [a[0]] + (a[1..] + rb);
      ConsAppend(a, rb);
    }
  }

  /** `n` newlines. */
  function Newlines(n: nat): (s: string)
    ensures |s| == n && forall i | 0 <= i < n :: s[i] == '\n'
  {
    seq(n, i => '\n')
  }

  lemma {:induction false} LeadingNewlinesRun(n: nat, b: string)
    requires b == [] || b[0] != '\n'
    ensures LeadingNewlines(Newlines(n) + b) == n
    decreases n
  {
    if n > 0 {
      assert (Newlines(n) + b)[1..] == Newlines(n - 1) + b;
      LeadingNewlinesRun(n - 1, b);
    } else {
      assert Newlines(n) + b == b;
    }
  }

  /** Pass 5 turns a whole run of newlines into one `. `. */
  lemma NewlineRunToStop(n: nat, b: string)
    requires n > 0 && (b == [] || b[0] != '\n')
    ensures NewlinesToStops(Newlines(n) + b) == ". " + NewlinesToStops(b)
  {
    var s := Newlines(n) + b;
    LeadingNewlinesRun(n, b);
    assert s[0] == '\n';
    assert s[n..] == b;
  }

  /** Plain text at the front is read exactly as written, whatever follows
      it. */
  lemma ForSpeechPlainPrefix(a: string, b: string, emoji: set<char>)
    requires '.' !in emoji && ' ' !in emoji
    requires Plain(a, emoji)
    ensures ForSpeech(a + b, emoji) == a + ForSpeech(b, emoji)
  {
    var b1 := RemoveChars(b, emoji);
    var b2 := RemoveChars(b1, MarkdownChars);
    RemoveCharsAppend(a, b, emoji);
    assert RemoveChars(a, emoji) == a;
    RemoveCharsAppend(a, b1, MarkdownChars);
    assert RemoveChars(a, MarkdownChars) == a;
    assert '(' !in a;
    RemoveLinksAppend(a, b2);
    var b3 := RemoveLinks(b2);
    assert '<' !in a;
    RemoveTagsAppend(a, b3);
    assert '\n' !in a;
    NewlinesToStopsAppend(a, RemoveTags(b3));
  }

  lemma MarkdownLeft(m: string, emoji: set<char>)
    requires forall i | 0 <= i < |m| :: m[i] in emoji || m[i] in MarkdownChars
    ensures var m1 := RemoveChars(m, emoji);
            forall i | 0 <= i < |m1| :: m1[i] in MarkdownChars
  {
    var m1 := RemoveChars(m, emoji);
    forall i | 0 <= i < |m1|
      ensures m1[i] in MarkdownChars
    {
      assert m1[i] in m1;
    }
  }

  lemma MarkupStripped(m: string, b: string, emoji: set<char>)
    requires forall i | 0 <= i < |m| :: m[i] in emoji || m[i] in MarkdownChars
    ensures RemoveChars(RemoveChars(m + b, emoji), MarkdownChars)
         == RemoveChars(RemoveChars(b, emoji), MarkdownChars)
  {
    var m1 := RemoveChars(m, emoji);
    var b1 := RemoveChars(b, emoji);
    RemoveCharsAppend(m, b, emoji);
    MarkdownLeft(m, emoji);
    RemoveCharsAllDropped(m1, MarkdownChars);
    RemoveCharsAppend(m1, b1, MarkdownChars);
    assert [] + RemoveChars(b1, MarkdownChars) == RemoveChars(b1, MarkdownChars);
  }

  /** Emoji and markdown characters at the front are not read at all. */
  lemma MarkupPrefixSilent(m: string, b: string, emoji: set<char>)
    requires '.' !in emoji && ' ' !in emoji
    requires forall i | 0 <= i < |m| :: m[i] in emoji || m[i] in MarkdownChars
    ensures ForSpeech(m + b, emoji) == ForSpeech(b, emoji)
  {
    MarkupStripped(m, b, emoji);
  }

  /** Markdown emphasis between two plain texts is dropped and the texts
      are read as written, e.g. `Hi **there**` is read `Hi there`. */
  lemma EmphasisDropped(a: string, b: string, emoji: set<char>)
    requires '.' !in emoji && ' ' !in emoji
    requires Plain(a, emoji) && Plain(b, emoji)
    ensures ForSpeech(a + "**" + b, emoji) == a + b
  {
    assert a + "**" + b == a + ("**" + b);
    ForSpeechPlainPrefix(a, "**" + b, emoji);
    MarkupPrefixSilent("**", b, emoji);
  }
}

=== FILE: saver.dfy ===
/** `save_articles` (`news/news_fetcher/saver.py`): the normalised items are
    saved in order, keyed by URL, each at most once; a snippet shorter than
    the minimum is replaced by the full text when that is long enough, and
    an item still too short is skipped. The database is a map from URL to
    the article row and its summary page; `fetch` is `fetch_full_text` and
    `parse` is the date parser. */
module Saver {
  import opened Values
  import opened Text
  import opened NewsUtils
  import Config

  /** The `Article` row. */
  datatype Stored = Stored(source: string, title: string, snippet: string,
                           publishedAt: Option<DateTime>)

  /** The `SummaryPage` row; the summary time is an abstract clock reading. */
  datatype Page = Page(heroImage: string, shortPreview: string, aiSummary: string,
                       summarizedAt: Option<int>, modelVersion: string,
                       confidence: Option<real>)

  datatype Row = Row(article: Stored, page: Page)

  type DB = map<string, Row>

  /** Too few words to keep. */
  predicate Short(text: string) {
    WordCount(text) < Config.MinArticleLength
  }

  /** The snippet the item is saved with: the stripped snippet, replaced by
      the fetched full text only when the stripped snippet is short and the
      full text is not. */
  function ChosenSnippet(item: Article, fetch: string -> Option<string>): (s: string)
    ensures !Short(Trim(Py, item.snippet)) ==> s == Trim(Py, item.snippet)
    ensures s != Trim(Py, item.snippet) ==>
              fetch(item.url).Some? && s == fetch(item.url).value && !Short(s)
  {
    var snippet := Trim(Py, item.snippet);
    if Short(snippet) then
      var fetched := fetch(item.url);
      if WordCountOf(fetched) >= Config.MinArticleLength then
        WordCountIsRunStarts(fetched.value);
        fetched.value
      else snippet
    else snippet
  }

  /** The row an item is saved as, or `None` when it is skipped as low
      quality. The page is reset to an unsummarised preview of the text. */
  function Prepare(item: Article, fetch: string -> Option<string>,
                   parse: string -> Option<DateTime>): (r: Option<Row>)
    ensures r.Some? <==> !Short(ChosenSnippet(item, fetch))
    ensures r.Some? ==> var row := r.value;
              && row.article.snippet == ChosenSnippet(item, fetch)
              && !Short(row.article.snippet)
              && row.article.title == Take(item.title, 300)
              && |row.article.title| <= 300
              && row.article.source != ""
              && (item.source != "" ==> row.article.source == item.source)
              && (item.source == "" ==> row.article.source == "gdelt")
              && row.article.publishedAt == ParsePublishedAt(item.publishedAtRaw, parse)
              && row.page == Page("", Take(row.article.snippet, 200), row.article.snippet, None, "", None)
  {
    var snippet := ChosenSnippet(item, fetch);
    if Short(snippet) then None
    else
      var source := if item.source == "" then "gdelt" else item.source;
      var stored := Stored(source, Take(item.title, 300), snippet,
                           ParsePublishedAt(item.publishedAtRaw, parse));
      Some(Row(stored, Page("", Take(snippet, 200), snippet, None, "", None)))
  }

  /** What the loop does with one item if its URL is new: the URL, whether
      the full text is fetched, and the row written, if any. */
  datatype Decision = Decision(url: string, fetches: bool, row: Option<Row>)

  function Decide(item: Article, fetch: string -> Option<string>,
                  parse: string -> Option<DateTime>): (d: Decision)
    ensures d.url == item.url
    ensures d.fetches <==> Short(Trim(Py, item.snippet))
    ensures d.row == Prepare(item, fetch, parse)
  {
    Decision(item.url, Short(Trim(Py, item.snippet)), Prepare(item, fetch, parse))
  }

  /** The decision for every item, by position. */
  function Decisions(items: seq<Article>, fetch: string -> Option<string>,
                     parse: string -> Option<DateTime>): (ds: seq<Decision>)
    ensures |ds| == |items|
    ensures forall i | 0 <= i < |items| :: ds[i] == Decide(items[i], fetch, parse)
  {
    seq(|items|, i requires 0 <= i < |items| => Decide(items[i], fetch, parse))
  }

  /** The position of the first decision for this URL. */
  function FirstIndex(ds: seq<Decision>, url: string): (r: Option<nat>)
    ensures r.Some? ==> r.value < |ds| && ds[r.value].url == url
                        && forall j | 0 <= j < r.value :: ds[j].url != url
    ensures r.None? ==> forall j | 0 <= j < |ds| :: ds[j].url != url
    decreases |ds|
  {
    if ds == [] then None
    else if ds[0].url == url then Some(0)
    else
      match FirstIndex(ds[1..], url)
      case None => None
      case Some(j) => Some(j + 1)
  }

  /** The first-occurrence view of the save: a non-empty URL ends up with
      the row prepared from its first item, unless that item is skipped, in
      which case the database keeps what it had. Later items with the same
      URL play no part. */
  function Expected(ds: seq<Decision>, db: DB, url: string): Option<Row> {
    if url == "" then Get(db, url)
    else
      match FirstIndex(ds, url)
      case None => Get(db, url)
      case Some(j) => if ds[j].row.Some? then ds[j].row else Get(db, url)
  }

  /** The URLs whose first item had a short stripped snippet: exactly the
      ones `fetch_full_text` is called for. */
  predicate NeedsFetch(ds: seq<Decision>, url: string) {
    url != "" && FirstIndex(ds, url).Some? && ds[FirstIndex(ds, url).value].fetches
  }

  /** The non-empty URLs of the items. */
  function Urls(ds: seq<Decision>): (r: set<string>)
    ensures forall u :: u in r <==> u != "" && FirstIndex(ds, u).Some?
    decreases |ds|
  {
    if ds == [] then {}
    else
      var rest := Urls(ds[1..]);
      if ds[0].url == "" then rest else {ds[0].url} + rest
  }

  /** Extending the items by one keeps every first occurrence already
      found, and the new item is a first occurrence exactly when its URL is
      new. */
  lemma {:induction false} FirstIndexSnoc(ds: seq<Decision>, x: Decision, url: string)
    ensures FirstIndex(ds, url).Some? ==> FirstIndex(ds + [x], url) == FirstIndex(ds, url)
    ensures FirstIndex(ds, url).None? && x.url == url ==> FirstIndex(ds + [x], url) == Some(|ds|)
    ensures FirstIndex(ds, url).None? && x.url != url ==> FirstIndex(ds + [x], url).None?
    decreases |ds|
  {
    if ds != [] {
      assert (ds + [x])[1..] == ds[1..] + [x];
      FirstIndexSnoc(ds[1..], x, url);
    }
  }

  lemma AddOne(a: set<string>, k: string)
    requires k !in a
    ensures |a + {k}| == |a| + 1
  {
  }

  lemma SubsetCard<T>(a: set<T>, b: set<T>)
    requires a <= b
    ensures |a| <= |b|
  {
    assert b == a + (b - a);
  }

  /** What the loop carries: the database, the count of created rows, the
      URLs fetched so far and the `seen` set. */
  datatype State = State(db: DB, saved: nat, fetched: seq<string>, seen: set<string>)

  /** One iteration of the loop, given the item's decision. */
  function SaveOne(st: State, d: Decision): State {
    if d.url == "" || d.url in st.seen then st
    else
      var fetched := if d.fetches then st.fetched + [d.url] else st.fetched;
      match d.row
      case None => State(st.db, st.saved, fetched, st.seen + {d.url})
      case Some(row) =>
        var saved := if d.url in st.db then st.saved else st.saved + 1;
        State(st.db[d.url := row], saved, fetched, st.seen + {d.url})
  }

  ghost predicate RowsAgree(ds: seq<Decision>, db: DB, st: State) {
    forall u :: Get(st.db, u) == Expected(ds, db, u)
  }

  ghost predicate FetchesAgree(ds: seq<Decision>, st: State) {
    && (forall k | 0 <= k < |st.fetched| :: NeedsFetch(ds, st.fetched[k]))
    && (forall u | NeedsFetch(ds, u) :: u in st.fetched)
  }

  predicate CountAgrees(db: DB, st: State) {
    && db.Keys <= st.db.Keys
    && st.db.Keys - db.Keys <= st.seen
    && st.saved == |st.db.Keys - db.Keys|
  }

  /** Where a URL's first occurrence lies once one decision is added. */
  lemma FirstSnoc(p: seq<Decision>, x: Decision, u: string)
    ensures FirstIndex(p, u).Some? ==> FirstIndex(p + [x], u) == FirstIndex(p, u)
                                       && (p + [x])[FirstIndex(p, u).value] == p[FirstIndex(p, u).value]
    ensures FirstIndex(p, u).None? && x.url == u ==> FirstIndex(p + [x], u) == Some(|p|)
    ensures FirstIndex(p, u).None? && x.url != u ==> FirstIndex(p + [x], u).None?
  {
    FirstIndexSnoc(p, x, u);
  }

  lemma RowsStepAt(p: seq<Decision>, x: Decision, db: DB, st: State, u: string)
    requires x.url in st.seen <==> x.url != "" && FirstIndex(p, x.url).Some?
    requires Get(st.db, u) == Expected(p, db, u)
    ensures Get(SaveOne(st, x).db, u) == Expected(p + [x], db, u)
  {
    FirstSnoc(p, x, u);
  }

  lemma RowsStep(ds: seq<Decision>, i: nat, db: DB, st: State)
    requires i < |ds| && st.seen == Urls(ds[..i])
    requires RowsAgree(ds[..i], db, st)
    ensures RowsAgree(ds[..i + 1], db, SaveOne(st, ds[i]))
  {
    var p := ds[..i];
    assert ds[..i + 1] == p + [ds[i]];
    assert ds[i].url in st.seen <==> ds[i].url != "" && FirstIndex(p, ds[i].url).Some?;
    forall u
      ensures Get(SaveOne(st, ds[i]).db, u) == Expected(p + [ds[i]], db, u)
    {
      RowsStepAt(p, ds[i], db, st, u);
    }
  }

  lemma FetchStepAt(p: seq<Decision>, x: Decision, u: string)
    ensures NeedsFetch(p, u) ==> NeedsFetch(p + [x], u)
    ensures x.url != "" && FirstIndex(p, x.url).None? && x.fetches ==> NeedsFetch(p + [x], x.url)
    ensures NeedsFetch(p + [x], u) ==>
              NeedsFetch(p, u) || (u == x.url && FirstIndex(p, u).None? && x.fetches)
  {
    FirstSnoc(p, x, u);
    FirstSnoc(p, x, x.url);
  }

  lemma FetchesStep(ds: seq<Decision>, i: nat, st: State)
    requires i < |ds| && st.seen == Urls(ds[..i])
    requires FetchesAgree(ds[..i], st)
    ensures FetchesAgree(ds[..i + 1], SaveOne(st, ds[i]))
  {
    var p, x := ds[..i], ds[i];
    assert ds[..i + 1] == p + [x];
    var st' := SaveOne(st, x);
    assert x.url in st.seen <==> x.url != "" && FirstIndex(p, x.url).Some?;
    FetchStepAt(p, x, x.url);
    forall k | 0 <= k < |st'.fetched|
      ensures NeedsFetch(p + [x], st'.fetched[k])
    {
      FetchStepAt(p, x, st'.fetched[k]);
    }
    forall u | NeedsFetch(p + [x], u)
      ensures u in st'.fetched
    {
      FetchStepAt(p, x, u);
    }
  }

  lemma SeenStep(ds: seq<Decision>, i: nat, st: State)
    requires i < |ds| && st.seen == Urls(ds[..i])
    ensures SaveOne(st, ds[i]).seen == Urls(ds[..i + 1])
  {
    var url := ds[i].url;
    var p, q := ds[..i], ds[..i + 1];
    assert q == p + [ds[i]];
    forall u
      ensures u in Urls(q) <==> u in Urls(p) || (u == url && url != "")
    {
      FirstIndexSnoc(p, ds[i], u);
    }
  }

  lemma CountStep(db: DB, st: State, d: Decision)
    requires CountAgrees(db, st)
    ensures CountAgrees(db, SaveOne(st, d))
  {
    var url := d.url;
    var st' := SaveOne(st, d);
    if url != "" && url !in st.seen && d.row.Some? {
      var row := d.row.value;
      assert st'.db == st.db[url := row];
      NewKeys(st.db, db, url, row);
      if url !in st.db {
        AddOne(st.db.Keys - db.Keys, url);
        assert st'.saved == st.saved + 1;
      } else {
        assert st'.saved == st.saved;
      }
    }
  }

  /** Writing a key adds it to the keys not in `base` exactly when it was
      in neither map. */
  lemma NewKeys(m: DB, base: DB, k: string, v: Row)
    ensures k !in m && k !in base ==> m[k := v].Keys - base.Keys == (m.Keys - base.Keys) + {k}
    ensures k in m ==> m[k := v].Keys - base.Keys == m.Keys - base.Keys
  {
    assert m[k := v].Keys == m.Keys + {k};
  }

  /** `save_articles(articles, stdout)`. Returns the new database, the
      number of rows created, and the URLs `fetch_full_text` was called
      for, in order. With `ds` the decisions for the items: every URL holds
      the first-occurrence row, the count is the number of new URLs, and
      the fetched URLs are exactly those whose first item was short. */
  method SaveArticles(items: seq<Article>, db: DB, fetch: string -> Option<string>,
                      parse: string -> Option<DateTime>)
    returns (db': DB, saved: nat, fetched: seq<string>)
    ensures var ds := Decisions(items, fetch, parse);
            && (forall u :: Get(db', u) == Expected(ds, db, u))
            && saved == |db'.Keys - db.Keys|
            && db'.Keys - db.Keys <= Urls(ds)
            && saved <= |Urls(ds)|
            && (forall k | 0 <= k < |fetched| :: NeedsFetch(ds, fetched[k]))
            && (forall u | NeedsFetch(ds, u) :: u in fetched)
  {
    var ds := Decisions(items, fetch, parse);
    var st := SaveAll(ds, db);
    SubsetCard(st.db.Keys - db.Keys, Urls(ds));
    db', saved, fetched := st.db, st.saved, st.fetched;
  }

  /** The loop of `save_articles` over the items' decisions. */
  method SaveAll(ds: seq<Decision>, db: DB) returns (st: State)
    ensures st.seen == Urls(ds)
    ensures RowsAgree(ds, db, st) && FetchesAgree(ds, st) && CountAgrees(db, st)
  {
    st := State(db, 0, [], {});
    var i := 0;
    while i < |ds|
      invariant i <= |ds|
      invariant st.seen == Urls(ds[..i])
      invariant RowsAgree(ds[..i], db, st)
      invariant FetchesAgree(ds[..i], st)
      invariant CountAgrees(db, st)
    {
      RowsStep(ds, i, db, st);
      FetchesStep(ds, i, st);
      SeenStep(ds, i, st);
      CountStep(db, st, ds[i]);
      st := SaveOne(st, ds[i]);
      i := i + 1;
    }
    assert ds[..i] == ds;
  }

  /** Every row the save writes holds a snippet of at least the minimum
      length, its page reset to an unsummarised preview; every other row
      is as it was. */
  lemma SavedRowsLong(items: seq<Article>, db: DB, db': DB, fetch: string -> Option<string>,
                      parse: string -> Option<DateTime>, u: string)
    requires forall v :: Get(db', v) == Expected(Decisions(items, fetch, parse), db, v)
    requires u in db' && (u !in db || db'[u] != db[u])
    ensures !Short(db'[u].article.snippet)
    ensures db'[u].page.summarizedAt.None? && db'[u].page.aiSummary == db'[u].article.snippet
  {
    var ds := Decisions(items, fetch, parse);
    assert Get(db', u) == Expected(ds, db, u);
    var j := FirstIndex(ds, u).value;
    assert ds[j] == Decide(items[j], fetch, parse);
  }

  /** A second item with an already-seen URL changes nothing, even when it
      would have been saved on its own. */
  lemma DuplicateIgnored(ds: seq<Decision>, db: DB, x: Decision, u: string)
    requires x.url in Urls(ds)
    ensures Expected(ds + [x], db, u) == Expected(ds, db, u)
    ensures NeedsFetch(ds + [x], u) <==> NeedsFetch(ds, u)
  {
    FirstIndexSnoc(ds, x, u);
    if u != "" && FirstIndex(ds, u).Some? {
      assert (ds + [x])[FirstIndex(ds, u).value] == ds[FirstIndex(ds, u).value];
    }
  }
}

=== FILE: session.dfy ===
/** Credential handling in the browser: the `localStorage` slots
    `access_token` and `refresh_token`, the login exchange that fills them,
    the profile menu that reads them, and logout. Being "authenticated"
    means only that the access slot holds a truthy string; nothing checks
    the token, and no refresh exchange is ever made. */
module Session {
  import opened Values

  /** `localStorage`: string keys to string values. */
  type Store = map<string, string>

  const AccessKey: string := "access_token"
  const RefreshKey: string := "refresh_token"
  const LoginPath: string := "/login"
  const HomePath: string := "/"
  const InvalidCredentials: string := "Invalid credentials"

  /** `const token = localStorage.getItem("access_token")` followed by
      `if (!token)`: the only authentication test the client makes. */
  predicate IsAuthenticated(s: Store) {
    Truthy(Get(s, AccessKey))
  }

  /** `localStorage.clear()`. */
  function Clear(s: Store): (r: Store)
    ensures r == map[]
    ensures !IsAuthenticated(r) && Get(r, RefreshKey).None?
  {
    map[]
  }

  /** The `Authorization` header the panels send: any stored token, even an
      empty one, follows `Bearer `; a missing token is sent as the text
      `null`. */
  function Bearer(s: Store): (h: string)
    ensures AccessKey in s ==> h == "Bearer " + s[AccessKey]
    ensures AccessKey !in s ==> h == "Bearer null"
  {
    match Get(s, AccessKey)
    case Some(t) => "Bearer " + t
    case None => "Bearer null"
  }

  /** `String(v)` for a JSON field that may be missing: `undefined` is
      stored as the text `undefined`. */
  function Stringify(v: Option<string>): (r: string)
    ensures v.Some? ==> r == v.value
    ensures v.None? ==> r == "undefined"
  {
    match v
    case Some(t) => t
    case None => "undefined"
  }

  /** The fields of the token endpoint's JSON body that the client reads. */
  datatype TokenBody = TokenBody(access: Option<string>, refresh: Option<string>)

  /** How `POST /api/token/` ends: the request is rejected, or a response
      arrives whose body is a JSON object (`Some`) or not (`None`). A body
      that is JSON `null` makes `data.access` throw, which ends the handler
      just like an unparsable body, so it is `Replied(true, None)`. */
  datatype TokenReply = Rejected | Replied(ok: bool, body: Option<TokenBody>)

  /** What the login form leaves behind: the store, the error shown, and
      where the browser navigates, if anywhere. */
  datatype LoginResult = LoginResult(store: Store, error: Option<string>, navigate: Option<string>)

  /** `login()`: the error is reset first; a non-ok status shows "Invalid
      credentials"; an ok JSON body writes both slots and goes home. A
      rejected request and an unparsable body are not caught: nothing is
      written and nothing else happens. */
  function Login(s: Store, reply: TokenReply): (r: LoginResult)
    ensures r.store != s ==> reply.Replied? && reply.ok && reply.body.Some?
    ensures reply.Replied? && !reply.ok ==>
              r == LoginResult(s, Some(InvalidCredentials), None)
    ensures (reply.Rejected? || (reply.ok && reply.body.None?)) ==>
              r == LoginResult(s, None, None)
    ensures reply.Replied? && reply.ok && reply.body.Some? ==>
              && r.error.None? && r.navigate == Some(HomePath)
              && r.store.Keys == s.Keys + {AccessKey, RefreshKey}
              && r.store[AccessKey] == Stringify(reply.body.value.access)
              && r.store[RefreshKey] == Stringify(reply.body.value.refresh)
              && (forall k | k in s && k != AccessKey && k != RefreshKey :: r.store[k] == s[k])
  {
    match reply
    case Rejected => LoginResult(s, None, None)
    case Replied(ok, body) =>
      if !ok then LoginResult(s, Some(InvalidCredentials), None)
      else if body.None? then LoginResult(s, None, None)
      else
        var b := body.value;
        LoginResult(s[AccessKey := Stringify(b.access)][RefreshKey := Stringify(b.refresh)],
                     None, Some(HomePath))
  }

  /** A successful login counts as authenticated unless the server sent an
      empty access token; a missing one is stored as `undefined`, which is
      truthy. */
  lemma LoginAuthenticates(s: Store, b: TokenBody)
    ensures IsAuthenticated(Login(s, Replied(true, Some(b))).store)
            <==> b.access.None? || b.access.value != ""
  {
  }

  /** The profile menu's own state. */
  datatype Menu = Menu(isOpen: bool)

  /** What the profile menu renders. */
  datatype MenuView = LoginButton | ProfileButton(dropdownShown: bool)

  /** Without a token only the login button is offered. */
  function RenderMenu(s: Store, m: Menu): (v: MenuView)
    ensures v.LoginButton? <==> !IsAuthenticated(s)
    ensures v.ProfileButton? ==> v.dropdownShown == m.isOpen
  {
    if !IsAuthenticated(s) then LoginButton else ProfileButton(m.isOpen)
  }

  datatype MenuResult = MenuResult(store: Store, menu: Menu, navigate: Option<string>)

  /** `handleLogout`: clears the whole store, closes the menu, goes to the
      login page. */
  function Logout(s: Store, m: Menu): (r: MenuResult)
    ensures r.store == map[] && !r.menu.isOpen && r.navigate == Some(LoginPath)
    ensures !IsAuthenticated(r.store) && RenderMenu(r.store, r.menu) == LoginButton
  {
    MenuResult(Clear(s), Menu(false), Some(LoginPath))
  }

  /** `handleNavigation(path)`: closes the menu, then navigates. */
  function NavigateTo(s: Store, m: Menu, path: string): (r: MenuResult)
    ensures r.store == s && !r.menu.isOpen && r.navigate == Some(path)
  {
    MenuResult(s, Menu(false), Some(path))
  }

  /** The profile button flips the dropdown. */
  function ToggleMenu(m: Menu): (r: Menu)
    ensures r.isOpen != m.isOpen
  {
    Menu(!m.isOpen)
  }

  /** A mouse-down outside the menu closes it; inside, nothing changes. */
  function ClickOutside(m: Menu, inside: bool): (r: Menu)
    ensures inside ==> r == m
    ensures !inside ==> !r.isOpen
  {
    if inside then m else Menu(false)
  }

  /** Once logged out, logging in again with an ok body restores both
      slots, and nothing else from before survives. */
  lemma LogoutThenLogin(s: Store, m: Menu, b: TokenBody)
    ensures var r := Login(Logout(s, m).store, Replied(true, Some(b)));
            && r.store.Keys == {AccessKey, RefreshKey}
            && r.store[AccessKey] == Stringify(b.access)
            && r.store[RefreshKey] == Stringify(b.refresh)
  {
  }
}

=== FILE: summarize.dfy ===
/** The summarisation pass (`news/management/commands/summarize_news.py`):
    every page not yet summarised whose stripped snippet is long enough is
    sent to the local model; a non-empty answer is stored with the time,
    the model name and a fixed confidence, and any failure leaves the page
    pending. `generate` is `generate_summary` (`None` for an exception) and
    `now` is the clock reading taken when a row is saved. */
module Summarize {
  import opened Values
  import opened Text
  import opened Saver

  const ModelName: string := "llama3.1:8b"
  const Confidence: real := 0.85

  predicate Pending(row: Row) {
    row.page.summarizedAt.None?
  }

  /** The text sent to the model: the stripped snippet. */
  function SourceText(row: Row): string {
    Trim(Py, row.article.snippet)
  }

  /** The model is asked for this row. */
  predicate Asked(row: Row) {
    Pending(row) && !Short(SourceText(row))
  }

  /** What the pass does to one row. */
  function SummarizeRow(row: Row, generate: string -> Option<string>, now: int): (r: Row)
    ensures r.article == row.article
    ensures !Asked(row) ==> r == row
    ensures Asked(row) && !Truthy(generate(SourceText(row))) ==> r == row
    ensures Asked(row) && Truthy(generate(SourceText(row))) ==>
              r.page == row.page.(aiSummary := generate(SourceText(row)).value,
                                  summarizedAt := Some(now),
                                  modelVersion := ModelName,
                                  confidence := Some(Confidence))
    ensures Pending(r) <==> Pending(row) && !(Asked(row) && Truthy(generate(SourceText(row))))
  {
    if !Pending(row) then row
    else
      var text := SourceText(row);
      if Short(text) then row
      else
        match generate(text)
        case None => row
        case Some(summary) =>
          if summary == "" then row
          else row.(page := row.page.(aiSummary := summary, summarizedAt := Some(now),
                                      modelVersion := ModelName, confidence := Some(Confidence)))
  }

  /** A second pass with the same model changes nothing: a summarised row is
      no longer pending, and a row the model failed on fails again. */
  lemma SummarizeRowIdempotent(row: Row, generate: string -> Option<string>, now: int, later: int)
    ensures SummarizeRow(SummarizeRow(row, generate, now), generate, later)
            == SummarizeRow(row, generate, now)
  {
  }

  /** Counting one more visited key. */
  lemma VisitOne(asked: set<string>, pending: set<string>, u: string)
    requires u in pending
    ensures u in asked ==> |asked - (pending - {u})| == |asked - pending| + 1
    ensures u !in asked ==> asked - (pending - {u}) == asked - pending
  {
    if u in asked {
      assert asked - (pending - {u}) == (asked - pending) + {u};
    }
  }

  /** The loop over the pending rows, in whatever order the database
      yields them: each pending key gets its new row, and each key of
      `asked` costs one model call. */
  method VisitPending<V>(db: map<string, V>, target: map<string, V>, pending0: set<string>,
                         asked: set<string>)
    returns (db': map<string, V>, calls: nat)
    requires target.Keys == db.Keys && pending0 <= db.Keys && asked <= pending0
    requires forall u | u in db && u !in pending0 :: target[u] == db[u]
    ensures db'.Keys == db.Keys
    ensures forall u | u in db :: db'[u] == target[u]
    ensures calls == |asked|
  {
    var pending := pending0;
    db' := db;
    calls := 0;
    while pending != {}
      invariant pending <= db.Keys
      invariant db'.Keys == db.Keys
      invariant forall u | u in db && u !in pending :: db'[u] == target[u]
      invariant calls == |asked - pending|
      decreases |pending|
    {
      var u :| u in pending;
      VisitOne(asked, pending, u);
      if u in asked {
        calls := calls + 1;
      }
      db' := db'[u := target[u]];
      pending := pending - {u};
    }
    assert asked - pending == asked;
  }

  /** The rows the model is asked about. */
  function AskedKeys(db: DB): (s: set<string>)
    ensures forall u :: u in s <==> u in db && Asked(db[u])
  {
    set u | u in db && Asked(db[u])
  }

  /** `Command.handle`: every row becomes its summarised form, and the
      model is called once per pending row with a long enough text. The
      clock is read once per saved row: `now(u)` is `timezone.now()` when
      the row of `u` is saved. */
  method Handle(db: DB, generate: string -> Option<string>, now: string -> int)
    returns (db': DB, calls: nat)
    ensures db'.Keys == db.Keys
    ensures forall u | u in db :: db'[u] == SummarizeRow(db[u], generate, now(u))
    ensures calls == |AskedKeys(db)|
  {
    var pending := set u | u in db && Pending(db[u]);
    var target := map u | u in db :: SummarizeRow(db[u], generate, now(u));
    db', calls := VisitPending(db, target, pending, AskedKeys(db));
  }
}

=== FILE: text.dfy ===
/** String helpers that the browser client and the backend both lean on:
    whitespace (JavaScript's `trim` and Python's `split`/`strip` disagree
    about which characters are whitespace), trimming, Python's
    whitespace word split, substring search, ASCII lower-casing, prefixes
    and splitting on a separator character. */
module Text {

  /** Which language's notion of whitespace is meant. */
  datatype Charset = Js | Py

  /** Whitespace common to JavaScript `String.prototype.trim` (WhiteSpace
      and LineTerminator of ECMA-262) and Python `str.isspace`: tab, line
      feed, vertical tab, form feed, carriage return, space, no-break space,
      ogham space mark, the spaces U+2000 to U+200A, the line and paragraph
      separators, the narrow no-break space, the medium mathematical space
      and the ideographic space. */
  predicate CommonSpace(c: char) {
    || '\t' <= c <= '\r'
    || c == ' ' || c == '\U{A0}' || c == '\U{1680}'
    || '\U{2000}' <= c <= '\U{200A}'
    || c == '\U{2028}' || c == '\U{2029}' || c == '\U{202F}' || c == '\U{205F}' || c == '\U{3000}'
  }

  /** JavaScript also trims the byte-order mark; Python also splits on the
      information separators U+1C to U+1F and on NEXT LINE. */
  predicate IsSpace(cs: Charset, c: char) {
    match cs
    case Js => CommonSpace(c) || c == '\U{FEFF}'
    case Py => CommonSpace(c) || '\U{1C}' <= c <= '\U{1F}' || c == '\U{85}'
  }

  /** Every character of `s` is whitespace (this includes the empty string). */
  predicate IsBlank(cs: Charset, s: string) {
    forall i | 0 <= i < |s| :: IsSpace(cs, s[i])
  }

  predicate NoSpace(s: string) {
    forall i | 0 <= i < |s| :: !IsSpace(Py, s[i])
  }

  /** The number of leading whitespace characters. */
  function LeadingSpaces(cs: Charset, s: string): (n: nat)
    ensures n <= |s|
    ensures n == |s| || !IsSpace(cs, s[n])
    ensures IsBlank(cs, s[..n])
  {
    if |s| > 0 && IsSpace(cs, s[0]) then
      var n := 1 + LeadingSpaces(cs, s[1..]);
      assert s[..n] == [s[0]] + s[1..][..n - 1];
      n
    else 0
  }

  /** The length of `s` without its trailing whitespace. */
  function TrailingStart(cs: Charset, s: string): (n: nat)
    ensures n <= |s|
    ensures n == 0 || !IsSpace(cs, s[n - 1])
    ensures IsBlank(cs, s[n..])
  {
    if |s| > 0 && IsSpace(cs, s[|s| - 1]) then
      var n := TrailingStart(cs, s[..|s| - 1]);
      assert s[n..] == s[..|s| - 1][n..] + [s[|s| - 1]];
      n
    else |s|
  }

  /** Drops leading whitespace. */
  function TrimStart(cs: Charset, s: string): string {
    s[LeadingSpaces(cs, s)..]
  }

  /** Drops trailing whitespace. */
  function TrimEnd(cs: Charset, s: string): string {
    s[..TrailingStart(cs, s)]
  }

  /** JavaScript `s.trim()` (with `Js`) or Python `s.strip()` (with `Py`):
      the infix of `s` left after removing whitespace at both ends. */
  function Trim(cs: Charset, s: string): (r: string)
    ensures var a := LeadingSpaces(cs, s);
            && a + |r| <= |s| && r == s[a..a + |r|]
            && IsBlank(cs, s[..a]) && IsBlank(cs, s[a + |r|..])
    ensures r == [] || (!IsSpace(cs, r[0]) && !IsSpace(cs, r[|r| - 1]))
    ensures r == [] <==> IsBlank(cs, s)
  {
    TrimShape(cs, s);
    TrimEnd(cs, TrimStart(cs, s))
  }

  lemma TrimShape(cs: Charset, s: string)
    ensures var t := TrimStart(cs, s); var r := TrimEnd(cs, t); var a := |s| - |t|;
            && r == s[a..a + |r|]
            && IsBlank(cs, s[..a]) && IsBlank(cs, s[a + |r|..])
            && (r == [] <==> IsBlank(cs, s))
  {
    var t := TrimStart(cs, s);
    var r := TrimEnd(cs, t);
    var a := |s| - |t|;
    assert r == s[a..a + |r|];
    assert s[a + |r|..] == t[|r|..];
  }

  /** Trimming twice is trimming once. */
  lemma TrimIdempotent(cs: Charset, s: string)
    ensures Trim(cs, Trim(cs, s)) == Trim(cs, s)
  {
    var r := Trim(cs, s);
    if r != [] {
      assert TrimStart(cs, r) == r;
      assert TrimEnd(cs, r) == r;
    }
  }

  /** The longest prefix of `s` without Python whitespace. */
  function WordPrefix(s: string): (r: string)
    ensures |r| <= |s| && r == s[..|r|]
    ensures NoSpace(r)
    ensures |r| == |s| || IsSpace(Py, s[|r|])
    ensures |s| > 0 && !IsSpace(Py, s[0]) ==> |r| > 0
  {
    if |s| == 0 || IsSpace(Py, s[0]) then [] else [s[0]] + WordPrefix(s[1..])
  }

  /** Python `s.split()`: the maximal runs of non-whitespace, in order. */
  function Words(s: string): (r: seq<string>)
    ensures forall k | 0 <= k < |r| :: r[k] != [] && NoSpace(r[k])
    decreases |s|
  {
    var t := TrimStart(Py, s);
    if t == [] then []
    else
      var w := WordPrefix(t);
      [w] + Words(t[|w|..])
  }

  /** `word_count(text)`: `len(text.split()) if text else 0`; the empty
      string has no words either way, so the guard changes nothing. */
  function WordCount(s: string): nat {
    |Words(s)|
  }

  /** An independent definition of the word count: the number of positions
      where a non-whitespace character follows whitespace or the start. */
  function RunStarts(s: string, afterSpace: bool): nat
    decreases |s|
  {
    if s == [] then 0
    else
      var starts := if afterSpace && !IsSpace(Py, s[0]) then 1 else 0;
      starts + RunStarts(s[1..], IsSpace(Py, s[0]))
  }

  lemma {:induction false} RunStartsSkipsSpaces(s: string)
    ensures RunStarts(TrimStart(Py, s), true) == RunStarts(s, true)
    decreases |s|
  {
    if |s| > 0 && IsSpace(Py, s[0]) {
      RunStartsSkipsSpaces(s[1..]);
    }
  }

  /** Inside a word (no run start) the count only depends on the rest. */
  lemma {:induction false} RunStartsThroughWord(w: string, rest: string)
    requires w != [] && NoSpace(w)
    requires rest == [] || IsSpace(Py, rest[0])
    ensures RunStarts(w + rest, false) == RunStarts(rest, true)
    decreases |w|
  {
    assert (w + rest)[1..] == w[1..] + rest;
    if |w| == 1 {
      assert w[1..] + rest == rest;
      if rest != [] {
        assert RunStarts(rest, false) == RunStarts(rest, true);
      }
    } else {
      RunStartsThroughWord(w[1..], rest);
    }
  }

  /** The word count is exactly the number of whitespace-to-word transitions. */
  lemma {:induction false} WordCountIsRunStarts(s: string)
    ensures WordCount(s) == RunStarts(s, true)
    decreases |s|
  {
    RunStartsSkipsSpaces(s);
    var t := TrimStart(Py, s);
    if t != [] {
      var w := WordPrefix(t);
      var rest := t[|w|..];
      assert t == w + rest;
      assert t[1..] == w[1..] + rest;
      if |w| == 1 {
        assert w[1..] + rest == rest;
        if rest != [] {
          assert RunStarts(rest, false) == RunStarts(rest, true);
        }
      } else {
        RunStartsThroughWord(w[1..], rest);
      }
      WordCountIsRunStarts(rest);
    }
  }

  /** Words on either side of a space are counted separately and add up. */
  lemma {:induction false} WordCountAppend(a: string, b: string)
    ensures WordCount(a + " " + b) == WordCount(a) + WordCount(b)
  {
    var sb := " " + b;
    assert a + " " + b == a + sb;
    WordCountIsRunStarts(a + sb);
    WordCountIsRunStarts(a);
    WordCountIsRunStarts(b);
    RunStartsConcat(a, sb, true);
    assert sb[1..] == b;
    assert RunStarts(sb, LastFlag(a, true)) == RunStarts(b, true);
  }

  /** The "after whitespace" flag once `s` has been read. */
  function LastFlag(s: string, afterSpace: bool): bool {
    if s == [] then afterSpace else IsSpace(Py, s[|s| - 1])
  }

  lemma {:induction false} RunStartsConcat(a: string, b: string, f: bool)
    ensures RunStarts(a + b, f) == RunStarts(a, f) + RunStarts(b, LastFlag(a, f))
    decreases |a|
  {
    if a == [] {
      assert a + b == b;
    } else {
      assert (a + b)[1..] == a[1..] + b;
      RunStartsConcat(a[1..], b, IsSpace(Py, a[0]));
      if |a| > 1 {
        assert a[1..][|a[1..]| - 1] == a[|a| - 1];
      }
    }
  }

  /** Python `needle in haystack` for strings. */
  predicate IsInfix(needle: string, haystack: string) {
    exists i | 0 <= i <= |haystack| - |needle| :: OccursAt(needle, haystack, i)
  }

  predicate OccursAt(needle: string, haystack: string, i: nat) {
    i + |needle| <= |haystack| && haystack[i..i + |needle|] == needle
  }

  function LowerChar(c: char): char {
    if 'A' <= c <= 'Z' then (c as int + 32) as char else c
  }

  /** Python `s.lower()` restricted to ASCII letters. */
  function Lower(s: string): (r: string)
    ensures |r| == |s|
    ensures forall i | 0 <= i < |r| :: !('A' <= r[i] <= 'Z')
    ensures forall i | 0 <= i < |r| :: r[i] == s[i] || 'A' <= s[i] <= 'Z'
  {
    seq(|s|, i requires 0 <= i < |s| => LowerChar(s[i]))
  }

  /** Text without ASCII capitals is its own lower-case form. */
  lemma LowerKeepsLowercase(s: string)
    requires forall i | 0 <= i < |s| :: !('A' <= s[i] <= 'Z')
    ensures Lower(s) == s
  {
  }

  /** Python `s[:n]`: the first `n` characters, or all of `s` if shorter. */
  function Take(s: string, n: nat): (r: string)
    ensures |r| <= |s| && r == s[..|r|]
    ensures |s| <= n ==> r == s
    ensures n < |s| ==> |r| == n
  {
    if |s| <= n then s else s[..n]
  }

  /** Python `s.split(c)` for a one-character separator. */
  function SplitOn(s: string, c: char): (r: seq<string>)
    ensures |r| >= 1
    ensures forall k | 0 <= k < |r| :: c !in r[k]
    decreases |s|
  {
    if c !in s then [s]
    else
      var i := IndexOf(s, c);
      [s[..i]] + SplitOn(s[i + 1..], c)
  }

  /** Joining the pieces with the separator gives back the string. */
  lemma {:induction false} JoinSplit(s: string, c: char)
    ensures JoinWith(SplitOn(s, c), c) == s
    decreases |s|
  {
    if c in s {
      var i := IndexOf(s, c);
      var rest := SplitOn(s[i + 1..], c);
      var r := [s[..i]] + rest;
      assert SplitOn(s, c) == r;
      assert r[1..] == rest;
      assert JoinWith(r, c) == s[..i] + [c] + JoinWith(rest, c);
      JoinSplit(s[i + 1..], c);
      assert s == s[..i] + [c] + s[i + 1..];
    }
  }

  /** Python `c.join(parts)` for a one-character separator. */
  function JoinWith(parts: seq<string>, c: char): string
    requires |parts| >= 1
  {
    if |parts| == 1 then parts[0] else parts[0] + [c] + JoinWith(parts[1..], c)
  }

  /** The first index of `c` in `s`. */
  function IndexOf(s: string, c: char): (i: nat)
    requires c in s
    ensures i < |s| && s[i] == c && c !in s[..i]
  {
    if s[0] == c then 0 else 1 + IndexOf(s[1..], c)
  }
}

=== FILE: topics.dfy ===
/** Topic onboarding (`SelectTopics`): a list of selected topic ids that a
    click toggles, and a Continue button that posts the selection. */
module Topics {
  import opened Values

  predicate NoDuplicates(s: seq<int>) {
    forall i, j | 0 <= i < j < |s| :: s[i] != s[j]
  }

  /** `prev.filter(t => t !== id)`. */
  function Without(s: seq<int>, id: int): (r: seq<int>)
    ensures forall x :: x in r <==> x in s && x != id
    ensures |r| <= |s|
    ensures NoDuplicates(s) ==> NoDuplicates(r)
    ensures id !in s ==> r == s
  {
    if s == [] then []
    else
      var rest := Without(s[1..], id);
      assert forall x :: x in s <==> x == s[0] || x in s[1..];
      if s[0] == id then rest
      else
        var r := [s[0]] + rest;
        assert forall i | 1 <= i < |r| :: r[i] == rest[i - 1];
        assert NoDuplicates(s) ==> NoDuplicates(r) by {
          if NoDuplicates(s) {
            assert forall i | 1 <= i < |s| :: s[i] == s[1..][i - 1];
            assert s[0] !in s[1..];
          }
        }
        r
  }

  /** `toggleTopic(id)`: removes every copy of `id` when selected, else
      appends it at the end. */
  function Toggle(s: seq<int>, id: int): (r: seq<int>)
    ensures id in r <==> id !in s
    ensures forall x | x != id :: x in r <==> x in s
    ensures id !in s ==> r == s + [id]
    ensures NoDuplicates(s) ==> NoDuplicates(r)
  {
    if id in s then Without(s, id) else s + [id]
  }

  /** Selecting a topic and deselecting it restores the selection; for a
      topic that was already selected, the two clicks move it to the end. */
  lemma ToggleTwice(s: seq<int>, id: int)
    ensures id !in s ==> Toggle(Toggle(s, id), id) == s
    ensures id in s ==> Toggle(Toggle(s, id), id) == Without(s, id) + [id]
  {
    if id !in s {
      WithoutAppended(s, id);
    }
  }

  /** Removing the element just appended gives back the list. */
  lemma {:induction false} WithoutAppended(s: seq<int>, id: int)
    requires id !in s
    ensures Without(s + [id], id) == s
  {
    if s == [] {
      assert [id][1..] == [];
    } else {
      assert (s + [id])[1..] == s[1..] + [id];
      WithoutAppended(s[1..], id);
    }
  }

  /** Continue is disabled iff nothing is selected. */
  predicate ContinueEnabled(s: seq<int>) {
    |s| != 0
  }

  /** How the preference `POST` ends: its promise resolves (whatever the
      status) or rejects. */
  datatype SaveReply = Resolved | Rejected

  datatype Saved = Saved(posted: seq<int>, navigate: Option<string>)

  /** `savePreferences`: posts `{topics: selected}`, then goes home once
      the request settles successfully; a rejection is not caught. */
  function Save(s: seq<int>, reply: SaveReply): (r: Saved)
    ensures r.posted == s
    ensures r.navigate.Some? <==> reply.Resolved?
    ensures r.navigate.Some? ==> r.navigate.value == "/"
  {
    Saved(s, if reply.Resolved? then Some("/") else None)
  }

  /** Clicking a set of distinct topics once each, starting from nothing,
      selects exactly them in click order. */
  function ClickAll(s: seq<int>, clicks: seq<int>): seq<int>
    decreases |clicks|
  {
    if clicks == [] then s else ClickAll(Toggle(s, clicks[0]), clicks[1..])
  }

  lemma {:induction false} ClickDistinct(s: seq<int>, clicks: seq<int>)
    requires NoDuplicates(s + clicks)
    ensures ClickAll(s, clicks) == s + clicks
    decreases |clicks|
  {
    if clicks != [] {
      assert (s + clicks)[|s|] == clicks[0];
      assert forall i | 0 <= i < |s| :: s[i] == (s + clicks)[i] != clicks[0];
      assert s + clicks == (s + [clicks[0]]) + clicks[1..];
      ClickDistinct(s + [clicks[0]], clicks[1..]);
    }
  }
}

=== FILE: transport.dfy ===
/** What the browser's chat panels see of one `fetch` to an AI endpoint
    followed by `res.json()`. */
module Transport {
  import opened Values

  /** The fields of the parsed JSON body that the panels read. A field that
      is missing or JSON `null` is `None`. A body that is `null` as a whole
      depends on the reader: the article panel reads `data?.reply`, so for it
      the body is `Body(None, None)`; the general panel reads `data.error`
      and `data.reply` without `?.`, so for it reading the body throws and
      the round-trip is `Thrown`. */
  datatype Body = Body(reply: Option<string>, error: Option<string>)

  /** How the round-trip ends: either the body parsed as JSON, whatever the
      HTTP status, or something threw (the request was rejected, or the body
      was not JSON), and control went to the `catch` block. */
  datatype Outcome =
    | Answered(ok: bool, body: Body)
    | Thrown
}

=== FILE: values.dfy ===
/** Values shared by the browser client and the Python backend: an optional
    value, and the truthiness of a possibly-absent string, which both
    JavaScript (`a || b`) and Python (`a or b`) use to pick fallbacks. */
module Values {

  /** An absent value (`None`, `null`, `undefined`) or a present one. */
  datatype Option<T> = None | Some(value: T)

  /** A possibly-absent string is truthy iff it is present and non-empty;
      this is the same rule in JavaScript and in Python. */
  predicate Truthy(o: Option<string>) {
    o.Some? && o.value != ""
  }

  /** `o || fallback` (JavaScript) or `o or fallback` (Python) where the
      fallback is a string: the value itself when truthy, else the fallback. */
  function Or(o: Option<string>, fallback: string): (r: string)
    ensures Truthy(o) ==> r == o.value
    ensures !Truthy(o) ==> r == fallback
    ensures r != "" <== Truthy(o) || fallback != ""
  {
    if Truthy(o) then o.value else fallback
  }

  /** Python's `a or b` when both operands may be absent: the first operand
      when truthy, otherwise the second operand as it is (possibly `None`,
      possibly the empty string). */
  function OrRaw(a: Option<string>, b: Option<string>): (r: Option<string>)
    ensures Truthy(a) ==> r == a
    ensures !Truthy(a) ==> r == b
    ensures Truthy(r) <==> Truthy(a) || Truthy(b)
  {
    if Truthy(a) then a else b
  }

  /** A map lookup that reports an absent key instead of failing: Python's
      `dict.get(key)` and `localStorage.getItem(key)`. */
  function Get<K, V>(m: map<K, V>, key: K): (r: Option<V>)
    ensures r.Some? <==> key in m
    ensures r.Some? ==> r.value == m[key]
  {
    if key in m then Some(m[key]) else None
  }

  function Min(a: int, b: int): int {
    if a <= b then a else b
  }
}

=== FILE: views.dfy ===
/** The decisions of the API views (`news/views.py`): registration, saving
    the preferred topics, the personalised summary list and the article
    chat. Users are keyed by username; a user's preference is the set of
    topic ids, absent when no preference row exists. Request fields are
    optional values; an absent or empty field is falsy. */
module Views {
  import opened Values
  import Gemini

  const Ok: int := 200
  const Created: int := 201
  const BadRequest: int := 400
  const Forbidden: int := 403
  const NotFound: int := 404
  const ServerError: int := 500

  datatype User = User(email: Option<string>, password: string)

  datatype Store = Store(users: map<string, User>, prefs: map<string, set<int>>)

  // ---------------------------------------------------------------------
  // RegisterAPIView.post
  // ---------------------------------------------------------------------

  datatype Registered = Registered(store: Store, status: int)

  /** A missing field is rejected before the duplicate check; a taken
      username is rejected without change; otherwise the user is created
      with an empty preference. */
  function Register(s: Store, username: Option<string>, email: Option<string>,
                    password: Option<string>): (r: Registered)
    ensures r.status in {BadRequest, Created}
    ensures !Truthy(username) || !Truthy(password) ==> r.status == BadRequest
    ensures r.status == BadRequest ==> r.store == s
    ensures r.status == Created <==>
              Truthy(username) && Truthy(password) && username.value !in s.users
    ensures r.status == Created ==>
              && r.store.users == s.users[username.value := User(email, password.value)]
              && r.store.prefs == s.prefs[username.value := {}]
  {
    if !Truthy(username) || !Truthy(password) then Registered(s, BadRequest)
    else if username.value in s.users then Registered(s, BadRequest)
    else
      var u := username.value;
      Registered(Store(s.users[u := User(email, password.value)], s.prefs[u := {}]), Created)
  }

  /** A repeated registration is refused and changes nothing. */
  lemma RegisterTwice(s: Store, username: string, email: Option<string>, password: string)
    requires username != "" && password != ""
    ensures var once := Register(s, Some(username), email, Some(password));
            var twice := Register(once.store, Some(username), email, Some(password));
            twice.status == BadRequest && twice.store == once.store
  {
  }

  /** After a successful registration no one but the new user is touched. */
  lemma RegisterOthersUnchanged(s: Store, username: Option<string>, email: Option<string>,
                                password: Option<string>, other: string)
    requires Register(s, username, email, password).status == Created
    requires other != username.value
    ensures var r := Register(s, username, email, password).store;
            (other in r.users <==> other in s.users)
            && (other in s.users ==> r.users[other] == s.users[other])
            && (other in r.prefs <==> other in s.prefs)
            && (other in s.prefs ==> r.prefs[other] == s.prefs[other])
  {
  }

  // ---------------------------------------------------------------------
  // SaveUserPreferencesAPIView.post
  // ---------------------------------------------------------------------

  /** The existing topics among the requested ids. */
  function Chosen(requested: seq<int>, topics: set<int>): (r: set<int>)
    ensures forall t :: t in r <==> t in topics && t in requested
  {
    set t | t in topics && t in requested
  }

  /** The preference (created if missing) becomes exactly the existing
      topics whose ids were requested; unknown ids are ignored. `requested`
      is absent when the body has no `topics` field. */
  function SavePreferences(s: Store, user: string, requested: Option<seq<int>>,
                           topics: set<int>): (r: Store)
    ensures r.users == s.users
    ensures user in r.prefs && r.prefs[user] <= topics
    ensures forall t :: t in r.prefs[user] <==> t in topics && requested.Some? && t in requested.value
    ensures forall v | v != user :: (v in r.prefs <==> v in s.prefs)
                                    && (v in s.prefs ==> r.prefs[v] == s.prefs[v])
  {
    var ids := if requested.Some? then requested.value else [];
    s.(prefs := s.prefs[user := Chosen(ids, topics)])
  }

  /** The new set does not depend on the old one: saving twice is saving
      once. */
  lemma SavePreferencesIdempotent(s: Store, user: string, requested: Option<seq<int>>, topics: set<int>)
    ensures SavePreferences(SavePreferences(s, user, requested, topics), user, requested, topics)
            == SavePreferences(s, user, requested, topics)
  {
  }

  // ---------------------------------------------------------------------
  // SummaryListAPIView.get
  // ---------------------------------------------------------------------

  /** A summary page with the topics of its article. */
  datatype Summary = Summary(id: int, articleTopics: set<int>, title: string, snippet: string)

  datatype Listing = Onboarding | Summaries(items: seq<Summary>)

  predicate Shares(x: Summary, topics: set<int>) {
    exists t :: t in x.articleTopics && t in topics
  }

  /** The summaries, in table order, whose article has one of the topics. */
  function Matching(table: seq<Summary>, topics: set<int>): (r: seq<Summary>)
    ensures |r| <= |table|
    ensures forall x :: x in r <==> x in table && Shares(x, topics)
    ensures forall i | 0 <= i < |r| :: Shares(r[i], topics)
    decreases |table|
  {
    if table == [] then []
    else if Shares(table[0], topics) then [table[0]] + Matching(table[1..], topics)
    else Matching(table[1..], topics)
  }

  predicate Distinct(xs: seq<Summary>) {
    forall i, j | 0 <= i < j < |xs| :: xs[i] != xs[j]
  }

  /** No duplicates: distinct rows stay distinct. */
  lemma {:induction false} MatchingDistinct(table: seq<Summary>, topics: set<int>)
    requires Distinct(table)
    ensures Distinct(Matching(table, topics))
    decreases |table|
  {
    if table != [] {
      var rest := table[1..];
      assert Distinct(rest) by {
        forall i, j | 0 <= i < j < |rest|
          ensures rest[i] != rest[j]
        {
          assert rest[i] == table[i + 1] && rest[j] == table[j + 1];
        }
      }
      MatchingDistinct(rest, topics);
      var m := Matching(rest, topics);
      assert table[0] !in m;
      if Shares(table[0], topics) {
        var r := [table[0]] + m;
        forall i, j | 0 <= i < j < |r|
          ensures r[i] != r[j]
        {
          assert r[j] == m[j - 1] && m[j - 1] in m;
          if i > 0 {
            assert r[i] == m[i - 1];
            assert m[i - 1] != m[j - 1];
          } else {
            assert r[i] == table[0];
          }
        }
        assert Matching(table, topics) == r;
      }
    }
  }

  /** A user with no preference row or no topic is sent to onboarding (with
      status 200); otherwise the matching summaries are listed. */
  function SummaryList(s: Store, user: string, table: seq<Summary>): (r: Listing)
    ensures r.Onboarding? <==> user !in s.prefs || s.prefs[user] == {}
    ensures r.Summaries? ==> forall x :: x in r.items <==> x in table && Shares(x, s.prefs[user])
  {
    if user !in s.prefs || s.prefs[user] == {} then Onboarding
    else Summaries(Matching(table, s.prefs[user]))
  }

  /** A freshly registered user is sent to onboarding until preferences are
      saved with at least one existing topic. */
  lemma NewUserOnboards(s: Store, username: string, email: Option<string>, password: string,
                        table: seq<Summary>)
    requires username != "" && password != "" && username !in s.users
    ensures SummaryList(Register(s, Some(username), email, Some(password)).store, username, table)
            == Onboarding
  {
  }

  // ---------------------------------------------------------------------
  // ArticleChatAPIView.post
  // ---------------------------------------------------------------------

  /** What the view decides before calling the model. */
  datatype ChatDecision =
    | Reject(status: int)
    | Ask(articleText: string, question: string)

  /** A falsy id is absent or zero. */
  predicate TruthyId(id: Option<int>) {
    id.Some? && id.value != 0
  }

  /** The checks in order: all three fields present (400); the summary
      exists (404); the user has a preference row (otherwise the lookup
      raises, 500); the article shares a topic with it (403). The text sent
      is the snippet, or the title when the snippet is empty. */
  function DecideChat(s: Store, user: string, summaries: map<int, Summary>,
                      articleId: Option<int>, summaryId: Option<int>,
                      question: Option<string>): (d: ChatDecision)
    ensures d == Reject(BadRequest) <==>
              !TruthyId(articleId) || !TruthyId(summaryId) || !Truthy(question)
    ensures d == Reject(NotFound) <==>
              TruthyId(articleId) && TruthyId(summaryId) && Truthy(question)
              && summaryId.value !in summaries
    ensures d == Reject(Forbidden) <==>
              TruthyId(articleId) && TruthyId(summaryId) && Truthy(question)
              && summaryId.value in summaries && user in s.prefs
              && !Shares(summaries[summaryId.value], s.prefs[user])
    ensures d == Reject(ServerError) <==>
              TruthyId(articleId) && TruthyId(summaryId) && Truthy(question)
              && summaryId.value in summaries && user !in s.prefs
    ensures d.Reject? ==> d.status in {BadRequest, NotFound, ServerError, Forbidden}
    ensures d.Ask? <==>
              TruthyId(articleId) && TruthyId(summaryId) && Truthy(question)
              && summaryId.value in summaries && user in s.prefs
              && Shares(summaries[summaryId.value], s.prefs[user])
    ensures d.Ask? ==> d.question == question.value
                       && d.articleText == Or(Some(summaries[summaryId.value].snippet),
                                              summaries[summaryId.value].title)
  {
    if !TruthyId(articleId) || !TruthyId(summaryId) || !Truthy(question) then Reject(BadRequest)
    else if summaryId.value !in summaries then Reject(NotFound)
    else if user !in s.prefs then Reject(ServerError)
    else
      var x := summaries[summaryId.value];
      if !Shares(x, s.prefs[user]) then Reject(Forbidden)
      else Ask(if x.snippet != "" then x.snippet else x.title, question.value)
  }

  /** The article id is only checked for presence: any two non-zero ids
      lead to the same decision. */
  lemma ArticleIdIgnored(s: Store, user: string, summaries: map<int, Summary>,
                         a: int, b: int, summaryId: Option<int>, question: Option<string>)
    requires a != 0 && b != 0
    ensures DecideChat(s, user, summaries, Some(a), summaryId, question)
            == DecideChat(s, user, summaries, Some(b), summaryId, question)
  {
  }

  /** The reply of the view: a status, and the model's reply when it is 200. */
  datatype ChatResponse = ChatResponse(status: int, reply: Option<string>)

  /** `ArticleChatAPIView.post`: the decision, then `article_conversation`;
      any exception from it escapes the view, which Django answers with a
      500. `calls` holds one oracle outcome per configured model. */
  method ArticleChat(s: Store, user: string, summaries: map<int, Summary>,
                     articleId: Option<int>, summaryId: Option<int>, question: Option<string>,
                     keySet: bool, calls: seq<Gemini.Call>)
    returns (r: ChatResponse, tried: nat)
    requires |calls| == |Gemini.ModelPriority|
    ensures var d := DecideChat(s, user, summaries, articleId, summaryId, question);
            && (d.Reject? ==> r == ChatResponse(d.status, None) && tried == 0)
            && (d.Ask? && !keySet ==> r == ChatResponse(ServerError, None) && tried == 0)
            && (d.Ask? && keySet ==>
                  var f := Gemini.Fallback(calls, true);
                  && tried == f.tried
                  && (f.outcome.Reply? ==> r == ChatResponse(Ok, Some(f.outcome.text)))
                  && (!f.outcome.Reply? ==> r == ChatResponse(ServerError, None)))
    ensures r.status == Ok <==> r.reply.Some?
    ensures r.status == Ok ==>
              && DecideChat(s, user, summaries, articleId, summaryId, question).Ask?
              && keySet && Gemini.Fallback(calls, true).outcome.Reply?
    ensures r.status in {Ok, BadRequest, NotFound, ServerError, Forbidden}
  {
    var d := DecideChat(s, user, summaries, articleId, summaryId, question);
    if d.Reject? {
      return ChatResponse(d.status, None), 0;
    }
    var outcome;
    outcome, tried := Gemini.ArticleConversation(keySet, calls);
    if outcome.Reply? {
      r := ChatResponse(Ok, Some(outcome.text));
    } else {
      r := ChatResponse(ServerError, None);
    }
  }
}
